=== FILE: README.md ===
# workflow-ui core, modelled in Dafny

This project models the logic at the heart of the workflow-ui component library:

- **The request gateway** (`src/api/client.ts`), in `client.dfy`. It covers:
  - the process-wide configuration that `configureApi` merges into by object spread;
  - the base URL and its `/api` default;
  - the JSON and `Authorization: Bearer` headers, with the token coming from `getToken` or from `localStorage['auth_token']`;
  - the five helpers `apiGet`, `apiPost`, `apiPut`, `apiPatch` and `apiDelete`, each with its own verb and body rule;
  - `handleResponse`: a non-ok status calls `onResponseError(status, text)` and then rejects with `HTTP <status>: <text>`; an empty body resolves to `undefined`; any other body is parsed as JSON;
  - a rejection of `fetch` itself (a network failure), which reaches the caller unchanged without calling the hook.
- **The session store** (`src/auth/authStore.ts`), in `auth_store.dfy`. It covers:
  - the zustand record `{token, user, isAuthenticated, isLoading, error}`;
  - the storage adapter, modelled in `storage.dfy`;
  - the four actions `login`, `logout`, `loadUser` and `clearError`, plus the initial read from storage.

  The record appears twice, and each form is proved against the other:
  - as values: a snapshot of the session together with the storage contents, and one transition function per action;
  - as a `Store` class whose methods update its fields through a shallow `Set`.

  `login` and `loadUser` are asynchronous, so each is split at its `await` into a start step and a finish step.
- **The live event subscriber** (`src/sse/sse.ts`), in `sse.dfy`. It covers:
  - the URL `connectSSE` opens: defaults first, then the stored token appended with `?` or `&` and percent-encoded;
  - the `onmessage` gate, which forwards a payload only when it parses;
  - the error handler, which is installed only when one is supplied.
- **The two data tables**:
  - The legacy table `src/components/DataTable.tsx`, in `data_table.dfy`. It uses 1-based pages and a page size clamped to at least 1. It sorts on the client unless the parent handles sorting. It places nulls first when ascending.
  - The nested table `src/components/DataTable/DataTable.tsx`, in `data_table_nested.dfy`. It uses 0-based pages, where a `pageSize <= 0` turns pagination off. It places nulls last in both directions, and a sort click goes back to the first page.

  For both tables, the values derived during a render are functions of the props and the state cells. The click handlers are methods of a class that holds those cells. `js_array.dfy` models `Array.prototype.sort` and `slice`; `js_value.dfy` models the cell values.

Some JavaScript semantics are written out explicitly:
- **Truthiness** (`!!token`, `if (token)`) is `Wrappers.Truthy`: a value that is present and not the empty string.
- **Object spread** distinguishes an absent key from one that is present with the value `undefined`, because the latter still overrides (`ApiClient.Prop`).
- **`${status}`** is `Text.NatToString`.

Functions that are foreign to the code are parameters of the model: `JSON.parse`, `JSON.stringify`, `encodeURIComponent`, `localeCompare`, `buildLoginBody`, `parseLoginResponse`, `getToken` and the table's `rowKey`.

On one point the design description and the code disagree, and the model follows the code. The description states the invariant `isAuthenticated === (token !== null)`, but the code does not keep it:
- a stored empty token starts the store with a token but unauthenticated;
- a failed login clears the flag but keeps an earlier token;
- a successful `loadUser` after a logout sets the flag without a token.

`AuthStore.AuthenticatedFlagCanDisagreeWithToken` exhibits all three cases. The invariant the code does keep is `AuthStore.Consistent`: the session token is the stored token, and a login in flight has no error recorded. It is proved for every run of actions in which each login response carries a string token. A response without one breaks it: the session then holds no token while storage holds the text `undefined` (`AuthStore.LoginWithoutTokenStoresUndefined`), or the text `null` when the response's token is JSON `null` (`AuthStore.LoginWithNullTokenStoresNull`).

## Model

| member | source | states |
|---|---|---|
| Wrappers.Lookup | src/auth/authStore.ts:14 | `getItem` yields the stored string for a present key and `null` for a missing one |
| Storage.KeyValueStorage.GetItem | src/auth/authStore.ts:14 | reading a key returns its stored value, or nothing when it is not stored, and changes nothing |
| Storage.KeyValueStorage.SetItem | src/auth/authStore.ts:15 | after `setItem`, the key maps to the value and every other key is unchanged |
| Storage.KeyValueStorage.RemoveItem | src/auth/authStore.ts:16 | after `removeItem`, the key is gone and every other key is unchanged |
| Text.NatToString | src/api/client.ts:61 | the decimal text of a status is a non-empty string of digits, without a leading zero when it has more than one digit |
| Text.NatToStringRoundTrip | src/api/client.ts:61 | reading the decimal text of a number back gives that number |
| Text.NatToStringInjective | src/api/client.ts:61 | different statuses have different decimal texts |
| Text.IntToString | src/components/DataTable.tsx:98 | `String(n)` of an integer is a non-empty run of digits, preceded by a `-` exactly when the integer is negative |
| ApiClient.Merge | src/api/client.ts:32-34 | every property the update lists, even as `undefined`, takes the update's value; every other property keeps its current value |
| ApiClient.MergeSuccessive | src/api/client.ts:32-34 | two successive `configureApi` calls equal one call with the second update spread over the first |
| ApiClient.MergeNeutralAndIdempotent | src/api/client.ts:32-34 | `configureApi({})` changes nothing, and repeating a call changes nothing more |
| ApiClient.BaseUrlSurvivesUnrelatedUpdate | src/api/client.ts:32-43 | an update without `baseUrl` keeps the earlier base URL |
| ApiClient.BaseUrl | src/api/client.ts:41-43 | the configured base URL, or `/api` when it is absent or `undefined` |
| ApiClient.HeadersFor | src/api/client.ts:45-53 | `Content-Type: application/json` is always sent; `Authorization: Bearer <token>` is sent exactly when the token is truthy; no other header is sent |
| ApiClient.HttpMessage | src/api/client.ts:61 | the error message starts with `HTTP ` and ends with the body text |
| ApiClient.HttpMessageRoundTrip | src/api/client.ts:61 | status and body text are recovered exactly from the `HTTP <status>: <text>` message |
| ApiClient.HttpMessageMentionsStatus | src/api/client.ts:61 | the message holds the status digits after `HTTP `, then `: `, then the body text |
| ApiClient.ErrorText | src/api/client.ts:57 | the body text of a failed response, or its `statusText` when reading the body fails |
| ApiClient.Interpret | src/api/client.ts:55-66 | a non-ok response rejects with the `HTTP <status>: <text>` message; if the body cannot be read, the text is `statusText`. An ok, empty body resolves to `undefined`. An unreadable or unparsable ok body rejects. Otherwise the result is the parsed value. Only ok responses resolve |
| ApiClient.Settle | src/api/client.ts:68-73 | a rejected `fetch` rejects the helper with the same reason; a response settles the helper as `Interpret` says |
| ApiClient.Client.constructor | src/api/client.ts:17 | the configuration starts as `{}` |
| ApiClient.Client.Configure | src/api/client.ts:32-34 | the new configuration is the old one with the update spread over it |
| ApiClient.Client.ProvidedToken | src/api/client.ts:47-48 | the token comes from `getToken` when configured, else from `localStorage['auth_token']` |
| ApiClient.Client.RequestFor | src/api/client.ts:69-70 | the URL is the base URL followed by the path, and the headers are those of the current token |
| ApiClient.Client.Serialized | src/api/client.ts:79 | a body is sent exactly when one is given, and it is its JSON text |
| ApiClient.Client.AuthHeaders | src/api/client.ts:45-53 | the method builds exactly `HeadersFor` of the provided token |
| ApiClient.Client.HookCallFor | src/api/client.ts:56-60 | `onResponseError` is called exactly when a response came back not ok and the hook is configured, with that status and body text; never when `fetch` rejected |
| ApiClient.Client.HandleResponse | src/api/client.ts:55-66 | the outcome is `Interpret`'s. `onResponseError` is called exactly for a non-ok response when the hook is configured, and it receives that status and body text |
| ApiClient.Client.ApiGet | src/api/client.ts:68-73 | GET sends no explicit method and no body to the base URL followed by the path, with the current headers; the outcome is `Settle`'s and the hook call is `HookCallFor`'s |
| ApiClient.Client.ApiPost | src/api/client.ts:75-82 | POST sends the serialized body only when one is given; the outcome is `Settle`'s and the hook call is `HookCallFor`'s |
| ApiClient.Client.ApiPut | src/api/client.ts:84-91 | PUT sends the serialized body only when one is given; the outcome is `Settle`'s and the hook call is `HookCallFor`'s |
| ApiClient.Client.ApiPatch | src/api/client.ts:93-100 | PATCH always sends the serialized body; the outcome is `Settle`'s and the hook call is `HookCallFor`'s |
| ApiClient.Client.ApiDelete | src/api/client.ts:102-108 | DELETE sends the DELETE method and no body; the outcome is `Settle`'s and the hook call is `HookCallFor`'s |
| AuthStore.Merge | src/auth/authStore.ts:87-117 | `set` gives every listed field its new value and keeps every other field |
| AuthStore.ErrorMessage | src/auth/authStore.ts:94 | the message of a thrown `Error`, or `Login failed` for any other thrown value |
| AuthStore.StoredForm | src/auth/authStore.ts:73-91 | the text `localStorage.setItem` keeps for the parsed token: the token itself, `undefined` when the response had none, `null` when its token was `null` |
| AuthStore.ParsedToken.InSession | src/auth/authStore.ts:73-92 | the session holds the token exactly when the response's token was a string; `undefined` and `null` both leave it without one |
| AuthStore.LoginResultOf | src/auth/authStore.ts:89-94 | a rejected request or a throwing `parseLoginResponse` ends the login as a throw carrying that error; otherwise it yields the parsed token and user |
| AuthStore.LoadResultOf | src/auth/authStore.ts:109-111 | `loadUser` fails exactly when the request rejects; an empty body loads no user |
| AuthStore.Initial | src/auth/authStore.ts:79-84 | the store starts with the stored token, authenticated exactly when that token is non-empty, with no user, not loading and no error |
| AuthStore.AfterLoginStart | src/auth/authStore.ts:87 | the start of `login` sets loading and clears the error, and touches nothing else |
| AuthStore.AfterLoginFinish | src/auth/authStore.ts:88-97 | on success the token's stored form is stored and the session holds the parsed token (none for `undefined` or `null`) and user, authenticated and idle. On failure the error message is recorded (`Login failed` for a non-`Error`) and the flag and loading are cleared, but token, user and storage stay. No other storage key changes |
| AuthStore.AfterLogout | src/auth/authStore.ts:100-105 | the token leaves storage; token, user, flag and error are cleared; `isLoading` is untouched |
| AuthStore.AfterLoadUser | src/auth/authStore.ts:107-115 | a loaded user is recorded and the flag set; a failure drops token, user and flag and removes the stored token; error and loading are untouched either way |
| AuthStore.AfterClearError | src/auth/authStore.ts:117 | only the error is cleared |
| AuthStore.ClearErrorIdempotent | src/auth/authStore.ts:117 | clearing twice equals clearing once; clearing with no error changes nothing |
| AuthStore.InitialConsistent | src/auth/authStore.ts:79-84 | the initial state is consistent |
| AuthStore.NextConsistent | src/auth/authStore.ts:86-117 | every action other than a login whose response had no string token keeps the session token equal to the stored token and keeps a login in flight free of errors |
| AuthStore.RunConsistent | src/auth/authStore.ts:86-117 | every sequence of such actions from a consistent state ends consistent |
| AuthStore.LoginWithoutTokenStoresUndefined | src/auth/authStore.ts:73-92 | a login response without a token leaves the session without a token but authenticated, stores the text `undefined`, breaks `Consistent`, and a store created afterwards starts authenticated with the token `undefined` |
| AuthStore.LoginWithNullTokenStoresNull | src/auth/authStore.ts:73-92 | a login response whose token is `null` leaves the session without a token but authenticated, stores the text `null`, breaks `Consistent`, and a store created afterwards starts authenticated with the token `null` |
| AuthStore.RunKeepsOtherKeys | src/auth/authStore.ts:86-117 | no sequence of actions changes a storage key other than the token key |
| AuthStore.OnlyLoginAuthenticates | src/auth/authStore.ts:86-97 | the token goes from null to set only through a successful login |
| AuthStore.OnlyLogoutOrFailedLoadDeauthenticates | src/auth/authStore.ts:88-115 | the token goes back to null only through `logout`, a failed `loadUser`, or a login whose response had no string token |
| AuthStore.AuthenticatedFlagCanDisagreeWithToken | src/auth/authStore.ts:80-110 | three reachable states in which `isAuthenticated` and `token !== null` differ |
| AuthStore.RefusedLoginRecordsHttpMessage | src/auth/authStore.ts:93-95 | a login refused by the server records `HTTP <status>: <text>` as the error, ends unauthenticated and idle, and keeps the storage |
| AuthStore.Store.constructor | src/auth/authStore.ts:67-84 | the defaults `/auth/login`, `/auth/me` and `auth_token` apply, and the store starts in `Initial` |
| AuthStore.Store.Set | src/auth/authStore.ts:79 | `set` replaces exactly the listed fields |
| AuthStore.Store.LoginStart | src/auth/authStore.ts:86-89 | the store moves as `AfterLoginStart` and sends by POST to the login path the serialized login body, or no body when `buildLoginBody` returned `undefined` |
| AuthStore.Store.LoginFinish | src/auth/authStore.ts:88-97 | the store moves as `AfterLoginFinish`, and a failure is re-raised to the caller |
| AuthStore.Store.Logout | src/auth/authStore.ts:100-105 | the store moves as `AfterLogout`; `onLogout`, when given, receives the token read before removal |
| AuthStore.Store.LoadUserRequest | src/auth/authStore.ts:107-109 | `loadUser` sends a GET with no body to the base URL followed by the me path |
| AuthStore.Store.LoadUserFinish | src/auth/authStore.ts:107-115 | the store moves as `AfterLoadUser` |
| AuthStore.Store.ClearError | src/auth/authStore.ts:117 | the store moves as `AfterClearError` |
| Sse.Separator | src/sse/sse.ts:33 | `&` exactly when the URL already has a `?`, else `?` |
| Sse.ExpectedUrl | src/sse/sse.ts:27-36 | the URL always starts with the configured or default URL. The encoded token is appended exactly when auth is on and a truthy token is stored; otherwise the URL is unchanged |
| Sse.FullUrl | src/sse/sse.ts:27-36 | the method builds exactly `ExpectedUrl` for the token stored under the configured or default key |
| Sse.DefaultUrlCarriesToken | src/sse/sse.ts:27-34 | with all defaults and a stored token `abc`, the URL is `/events?token=abc` |
| Sse.Gate | src/sse/sse.ts:40-47 | one message calls `onEvent` once with the parsed value when it parses, and not at all otherwise |
| Sse.DeliveriesConcat | src/sse/sse.ts:40-47 | the calls for a stream are the calls for each stretch of it, in order |
| Sse.Deliveries | src/sse/sse.ts:40-47 | there are never more calls than messages, one per message when every payload parses, and none for a stream of malformed payloads |
| Sse.EventSource.constructor | src/sse/sse.ts:38 | a new source has the full URL, no error handler and no deliveries |
| Sse.EventSource.OnMessage | src/sse/sse.ts:40-47 | each message extends the deliveries by its `Gate` and keeps them equal to those of the whole stream |
| Sse.EventSource.OnConnectionError | src/sse/sse.ts:49-51 | a connection error goes to the installed handler, if any |
| Sse.ConnectSse | src/sse/sse.ts:26-54 | a fresh source on `ExpectedUrl` with nothing received and no deliveries yet, and with an error handler installed exactly when `onError` is given |
| JsValue.Cell | src/components/DataTable.tsx:91-92 | `row[key]` is the stored value, or `null`/`undefined` when the key is missing |
| JsValue.ToString | src/components/DataTable.tsx:98 | `String(v)`: a string is itself; a boolean is `true` or `false`; an integer is a non-empty text starting with `-` exactly when it is negative, digits otherwise |
| JsArray.Insert | src/components/DataTable.tsx:90 | inserting adds exactly one element to the multiset |
| JsArray.Sort | src/components/DataTable.tsx:90-100 | the sorted copy is a permutation of the data, of the same length |
| JsArray.InsertOrdered | src/components/DataTable.tsx:90-100 | inserting into an array in comparator order keeps it in comparator order, when the comparator is a total preorder on the elements |
| JsArray.SortOrdered | src/components/DataTable.tsx:90-100 | with a comparator that is a total preorder on the elements, the sorted copy is in comparator order: no element compares above one after it |
| JsArray.SortPartitioned | src/components/DataTable.tsx:90-100 | if the comparator puts every element without a property before every element with it, the sorted array lists those without it first |
| JsArray.SliceAt | src/components/DataTable.tsx:103 | element `idx` of a slice from a non-negative start is element `start + idx` of the array |
| JsArray.RelativeIndex | src/components/DataTable.tsx:103 | a `slice` index in range is itself; one past the end is the length; a negative one counts from the end, and is 0 below the start |
| JsArray.Slice | src/components/DataTable.tsx:103 | for in-range non-negative bounds, `slice` is the subsequence between them, clamped to the length, and never longer than `end - start` |
| DataTable.PageSizeOrDefault | src/components/DataTable.tsx:66 | an omitted `pageSize` is 10, which needs no clamping |
| DataTable.SafePageSize | src/components/DataTable.tsx:82 | the page size is at least 1, and it is `pageSize` whenever that is positive |
| DataTable.CeilDiv | src/components/DataTable.tsx:83 | `Math.ceil(len / size)` is the fewest pages of `size` rows that hold `len` rows |
| DataTable.TotalPages | src/components/DataTable.tsx:83 | at least one page; with rows, the fewest pages that hold them all |
| DataTable.SafePage | src/components/DataTable.tsx:84 | the shown page is the stored page capped at the last page, and it stays at least 1 |
| DataTable.CompareAsWritten | src/components/DataTable.tsx:90-100 | as written, a `null` first value sorts first (ascending) or last (descending) whatever the second value is; two numbers compare by their difference; any other pair by `localeCompare` of their texts; descending negates |
| DataTable.CompareAsWrittenInconsistent | src/components/DataTable.tsx:93-99 | as written, two `null` values compare unequal in both orders |
| DataTable.Compare | src/components/DataTable.tsx:90-100 | two `null` values compare equal; otherwise `null` sorts first when ascending and last when descending; two numbers compare by their difference; any other pair by `localeCompare` of their texts; descending negates |
| DataTable.CompareConsistent | src/components/DataTable.tsx:90-100 | with an antisymmetric `localeCompare`, the corrected comparator is antisymmetric and every value compares equal to itself |
| DataTable.CompareTotalPreorder | src/components/DataTable.tsx:90-100 | with a collation, the corrected comparator is total and transitive on values that are all numbers or all compared as strings, `null` included |
| DataTable.MixedColumnCycle | src/components/DataTable.tsx:96-98 | on a column mixing numbers and strings the comparator is not transitive: 9 before 10, 10 before "5", "5" before 9 |
| DataTable.SortedData | src/components/DataTable.tsx:87-101 | the shown rows are a permutation of the data; the data order is kept when `onSort` is given or no sort is chosen |
| DataTable.SortedNullPlacement | src/components/DataTable.tsx:93-99 | rows with a `null` sort value come first in ascending order and last in descending order |
| DataTable.SortedDataOrdered | src/components/DataTable.tsx:87-101 | with a collation and a sort column that does not mix numbers with strings, the client-side sort leaves the rows in comparator order |
| DataTable.PageData | src/components/DataTable.tsx:103 | a page holds at most a page size of rows, namely rows `(page-1)*size` up to `page*size` |
| DataTable.PageDataIsSlice | src/components/DataTable.tsx:103 | page `m + 1` is the slice from row `m*size` up to row `(m+1)*size` |
| DataTable.PagesUpToPrefix | src/components/DataTable.tsx:103 | pages 1 to n together are the first `n*size` sorted rows |
| DataTable.PagesCoverRows | src/components/DataTable.tsx:83-103 | pages 1 to `totalPages` together show every sorted row exactly once, in order |
| DataTable.PageRowAt | src/components/DataTable.tsx:195-197 | the `idx`-th row of a page is the sorted row at the absolute index `(safePage-1)*size + idx` |
| DataTable.GetRowKey | src/components/DataTable.tsx:76-80 | the `rowKey` prop wins; otherwise a string or number `id`; otherwise the absolute index |
| DataTable.DefaultKeysDistinct | src/components/DataTable.tsx:76-80 | without a `rowKey` prop, the rows of a page get distinct keys when no row has an id, or when every row has one and the ids differ |
| DataTable.DefaultKeysCollideWithPartialIds | src/components/DataTable.tsx:76-80 | when only some rows have ids, a numeric id can equal another row's index and the keys collide |
| DataTable.NextDirection | src/components/DataTable.tsx:107-108 | `desc` exactly when the same column is currently sorted ascending |
| DataTable.SortClicksCycle | src/components/DataTable.tsx:105-111 | three clicks on a new column sort ascending, then descending, then ascending |
| DataTable.ClampPage | src/components/DataTable.tsx:115 | the stored page is between 1 and the last page, and it is the requested page when that is in range |
| DataTable.ShowPagination | src/components/DataTable.tsx:213 | the controls show exactly when Next is enabled on the first page |
| DataTable.PaginationShownExactlyWhenRowsOverflow | src/components/DataTable.tsx:213 | pagination shows exactly when there are more rows than the page size |
| DataTable.PreviousDisabled | src/components/DataTable.tsx:230 | on a valid page, Previous is disabled exactly on the first page |
| DataTable.NextDisabled | src/components/DataTable.tsx:244 | on a valid page, Next is disabled exactly when clamping the next page stays put |
| DataTable.ButtonsDisabledExactlyWhenNoMove | src/components/DataTable.tsx:228-244 | a page button is disabled exactly when its click would not move; an enabled one moves one page |
| DataTable.TableState.constructor | src/components/DataTable.tsx:73-74 | page 1, no sort |
| DataTable.TableState.ShownPage | src/components/DataTable.tsx:82-84 | the page shown is always between 1 and the page count, and it is the stored page while that is in range |
| DataTable.TableState.HandleSort | src/components/DataTable.tsx:105-112 | a non-sortable column changes nothing. A sortable one stores the key with `NextDirection`. `onSort` receives the new sort only when it is given. The page is kept |
| DataTable.TableState.HandlePage | src/components/DataTable.tsx:114-118 | the clamped page is stored and reported to `onPageChange` when it is given; the sort is kept |
| DataTableNested.PageSizeOrDefault | src/components/DataTable/DataTable.tsx:36 | an omitted `pageSize` is 10, which paginates |
| DataTableNested.Compare | src/components/DataTable/DataTable.tsx:59-69 | `null` sorts last in both directions; two `null` values compare equal; only the string comparison is negated by the direction |
| DataTableNested.CompareConsistent | src/components/DataTable/DataTable.tsx:59-69 | with an antisymmetric `localeCompare`, the comparator is antisymmetric and every value compares equal to itself |
| DataTableNested.CompareTotalPreorder | src/components/DataTable/DataTable.tsx:59-69 | with a collation, the comparator is total and transitive, `null` included, in both directions |
| DataTableNested.Sorted | src/components/DataTable/DataTable.tsx:57-70 | the rows are a permutation of the data, in data order when no (or an empty) sort key is set |
| DataTableNested.SortedNullsLast | src/components/DataTable/DataTable.tsx:62-64 | rows with a `null` or missing sort value come after all others, in both directions |
| DataTableNested.SortedOrdered | src/components/DataTable/DataTable.tsx:57-70 | with a collation, sorting by a key leaves the rows in comparator order: ascending or descending values, nulls last |
| DataTableNested.LeastComesFirst | src/components/DataTable/DataTable.tsx:57-70 | a row whose value compares strictly below every other row's comes first after sorting |
| DataTableNested.SortByNameExample | src/components/DataTable/DataTable.test.tsx:53-72 | sorting the rows Alpha, Beta, Gamma by name puts Alpha first ascending and Gamma first descending |
| DataTableNested.TotalPages | src/components/DataTable/DataTable.tsx:72 | one page without pagination or rows; otherwise the fewest pages that hold every row |
| DataTableNested.SafePage | src/components/DataTable/DataTable.tsx:73 | the shown page is the stored page capped at the last page, and it stays at least 0 |
| DataTableNested.Paginated | src/components/DataTable/DataTable.tsx:75-78 | without pagination all rows show; otherwise at most a page size of rows, namely rows `page*size` up to `(page+1)*size` |
| DataTableNested.PaginatedIsSlice | src/components/DataTable/DataTable.tsx:76 | with pagination, page `p` is the slice from row `p*size` up to row `(p+1)*size` |
| DataTableNested.PagesBelowPrefix | src/components/DataTable/DataTable.tsx:75-78 | pages 0 to n-1 together are the first `n*size` sorted rows |
| DataTableNested.PagesCoverRows | src/components/DataTable/DataTable.tsx:72-78 | pages 0 to `totalPages-1` together show every sorted row exactly once, in order |
| DataTableNested.ShowNavigation | src/components/DataTable/DataTable.tsx:155 | the navigation shows exactly when paginating and Next is enabled on the first page |
| DataTableNested.NavigationShownExactlyWhenRowsOverflow | src/components/DataTable/DataTable.tsx:155 | the navigation shows exactly when paginating and there are more rows than the page size |
| DataTableNested.PreviousDisabled | src/components/DataTable/DataTable.tsx:169 | on a shown page, Previous is disabled exactly when stepping back from it would not move |
| DataTableNested.NextDisabled | src/components/DataTable/DataTable.tsx:188 | on a valid shown page, Next is disabled exactly when stepping forward from it would not move |
| DataTableNested.PreviousPage | src/components/DataTable/DataTable.tsx:168 | Previous stores a page of at least 0, one less when possible |
| DataTableNested.NextPage | src/components/DataTable/DataTable.tsx:187 | Next stores a page of at most the last page, one more when possible |
| DataTableNested.ButtonsDisabledExactlyWhenNoMove | src/components/DataTable/DataTable.tsx:166-196 | for every stored page, an enabled Next moves the shown page one forward and a disabled one leaves it; Previous does the same while the stored page is a page of the data, and leaves the shown page where it is once the data has shrunk under it |
| DataTableNested.PreviousStuckAfterDataShrinks | src/components/DataTable/DataTable.tsx:73-169 | with stored page 5 and 15 rows of 10, the table shows page index 1 with Previous enabled, yet a click still shows page index 1 |
| DataTableNested.PreviousFromShown | src/components/DataTable/DataTable.tsx:168-169 | stepping back from the shown page: it moves one page back exactly when Previous is enabled, and stays otherwise |
| DataTableNested.TableState.constructor | src/components/DataTable/DataTable.tsx:40-42 | no sort key, ascending, page 0 |
| DataTableNested.TableState.ShownPage | src/components/DataTable/DataTable.tsx:72-73 | the page index shown is always a page of the data, and it is the stored page while that is in range |
| DataTableNested.TableState.HandleSort | src/components/DataTable/DataTable.tsx:44-55 | the same key flips the direction; a new key sorts ascending; the page always goes back to 0 |
| DataTableNested.TableState.Previous | src/components/DataTable/DataTable.tsx:168 | the page becomes `PreviousPage` of the stored page, as written; the sort is kept |
| DataTableNested.TableState.Next | src/components/DataTable/DataTable.tsx:187 | the page becomes `NextPage` of the stored page for the current page count; the sort is kept |

## Left out

- Rendering is not modelled: JSX, styles, icons, `aria-*` attributes, captions, cell renderers and empty messages. Only the values that decide what is shown are modelled: rows, pages, keys and button states.
- The remaining components are not part of this model: Modal, Sidebar, LoginPage, ErrorBoundary, LoadingSpinner and StatusBadge, along with the theme.
- `fetch`, `EventSource` and browser storage are not executed.
  - A helper receives what `fetch` settled to, a response or a rejection, and returns the request that went out.
  - The event source is a class that records the messages it delivered.
  - Storage is a map held in a class.
- `JSON.parse`, `JSON.stringify`, `encodeURIComponent` and `localeCompare` are uninterpreted parameters, so properties that depend on their meaning are stated under explicit assumptions about them.
- `fetch` is given what it settled to: a response, or a rejection whose reason is passed through. The kinds of rejection (network, abort, CORS) are not told apart.
- ApiClient.Client.ApiPost: a `body` given as `undefined` and no body at all are the same case, both `None`.
- ApiClient.Client.ApiPut: a `body` given as `undefined` and no body at all are the same case, both `None`.
- Concurrency is left out: two `login` or `loadUser` calls in flight at once can interleave their halves in any order. The model only covers a start followed by its finish, or any sequence of whole actions.
- Numbers are integers. The floating-point `NaN`, `Infinity` and fractional values are not modelled, and neither is `localeCompare`'s `numeric` option beyond its being a parameter.
- Cell values are `null`/`undefined`, booleans, integers and strings. Objects, arrays and `Date`s in a cell are not modelled, so their `String()` text, which both tables hand to `localeCompare`, is not either.
- `getToken` is a fixed function of no arguments. A provider whose answer changes between requests without a new `configureApi` call is not modelled.
- `BaseUser`'s extra fields are not modelled. The user record keeps `id`, `email` and `name`.
- `undefined` and `null` are one value wherever the code treats them alike (`??`, `== null`):
  - a `user` missing from the login response;
  - the `undefined` from an empty `loadUser` body;
  - a missing row key;
  - a login token that is `undefined` or `null`, in the session only. Storage keeps the two apart (`AuthStore.StoredForm`).
- JsArray.Sort: the sort is an insertion sort. It is proved to return a permutation in comparator order (`JsArray.SortOrdered`), but not that rows comparing equal keep their input order, as the engine's stable sort does.
- DataTable.SortedData: sorts with the corrected comparator `DataTable.Compare`. With the as-written comparator the engine's order among `null` rows is implementation-defined, so no order is modelled for it.
- DataTable.SortedDataOrdered: holds only for a sort column that does not mix numbers with strings, because a mixed column has no consistent order (`DataTable.MixedColumnCycle`).
- DataTable.DefaultKeysDistinct: React compares keys as strings, so a string id `"1"` and a number id `1` collide there. The model keeps the two keys apart and does not capture that collision.
- Callbacks (`onLogout`, `onResponseError`, `onError`, `onSort`, `onPageChange`) are modelled by identity. A call is returned as data. What the callback does, and whether it throws, is not modelled.
- Sse.Gate: an exception thrown by `onEvent` itself is swallowed by the same `catch`. The model records the call and does not model that exception.
- `getApiConfig` only returns the configuration. It is the `config` field of `ApiClient.Client`.
- AuthStore.Consistent holds only as long as nothing outside the store writes the token key.
- AuthStore.NextConsistent: excludes a login whose response carried no string token, which breaks the invariant (`AuthStore.LoginWithoutTokenStoresUndefined`, `AuthStore.LoginWithNullTokenStoresNull`).
- AuthStore.RunConsistent: excludes runs with a login whose response carried no string token, for the same reason.
- AuthStore.StoredForm: is what `localStorage` keeps. A custom storage adapter receives `undefined` or `null` itself and may keep something else.
- The nested table's required `rowKey` prop only names React keys and is not modelled.

## Findings

| source | as written | input that shows it | evidently intended | confidence | as-written member | corrected member |
|---|---|---|---|---|---|---|
| src/components/DataTable.tsx:93-99 | the sort comparator returns `-1` whenever the first value is `null`/`undefined`, including when the second is too, so two such values compare below each other in both orders (`+1` each way when descending) | sorting ascending on a column where two rows both have `null`: `cmp(a, b) = cmp(b, a) = -1`, which violates the consistency `Array.prototype.sort` requires, so the order of those rows is implementation-defined | two `null` values compare equal (`0`), as the nested table's comparator does, which keeps the sort stable among them | medium — not executed | DataTable.CompareAsWrittenInconsistent | DataTable.CompareConsistent |
| src/components/DataTable/DataTable.tsx:168-169 | Previous steps back from the stored page `p`, while its enabled state and the page shown use `safePage = min(p, totalPages - 1)` | the table on page index 5 whose data shrinks to 15 rows with `pageSize` 10: page index 1 shows with Previous enabled, and a click stores 4, which still shows as page index 1 | Previous steps back from the page shown, `Math.max(0, safePage - 1)`, as the legacy table's Previous does, so an enabled Previous always moves | medium — not executed | DataTableNested.PreviousStuckAfterDataShrinks | DataTableNested.PreviousFromShown |

=== FILE: auth_store.dfy ===
/**
 * The session store of src/auth/authStore.ts: the zustand record `{token, user, isAuthenticated,
 * isLoading, error}` and the storage adapter it persists the token to. Every `set({...})` call is a
 * shallow update of the fields it lists (a Patch). `login` and `loadUser` await a request; each is split
 * at the `await` into the part before it and the part that runs when the request settles.
 */
module AuthStore {
  import opened Wrappers
  import Storage
  import ApiClient

  /** `BaseUser`: an `id` and the two optional conveniences; further fields are not modelled. */
  datatype User = User(id: string, email: Option<string>, name: Option<string>)

  /** The data fields of `BaseAuthState`. */
  datatype Session = Session(
    token: Option<string>,
    user: Option<User>,
    isAuthenticated: bool,
    isLoading: bool,
    error: Option<string>)

  /** One field of the object given to `set`: left out (kept), or listed with its new value. */
  datatype Field<T> = Keep | Put(value: T) {
    function Over(current: T): T {
      if Put? then value else current
    }
  }

  /** The argument of one `set({...})` call. */
  datatype Patch = Patch(
    token: Field<Option<string>>,
    user: Field<Option<User>>,
    isAuthenticated: Field<bool>,
    isLoading: Field<bool>,
    error: Field<Option<string>>)

  const NoChange: Patch := Patch(Keep, Keep, Keep, Keep, Keep)

  /** zustand's `set`: the listed fields take their new values, the others keep theirs. */
  function Merge(s: Session, p: Patch): (r: Session)
    ensures p.token.Put? ==> r.token == p.token.value
    ensures p.token.Keep? ==> r.token == s.token
    ensures p.user.Put? ==> r.user == p.user.value
    ensures p.user.Keep? ==> r.user == s.user
    ensures p.isAuthenticated.Put? ==> r.isAuthenticated == p.isAuthenticated.value
    ensures p.isAuthenticated.Keep? ==> r.isAuthenticated == s.isAuthenticated
    ensures p.isLoading.Put? ==> r.isLoading == p.isLoading.value
    ensures p.isLoading.Keep? ==> r.isLoading == s.isLoading
    ensures p.error.Put? ==> r.error == p.error.value
    ensures p.error.Keep? ==> r.error == s.error
  {
    Session(p.token.Over(s.token), p.user.Over(s.user), p.isAuthenticated.Over(s.isAuthenticated),
            p.isLoading.Over(s.isLoading), p.error.Over(s.error))
  }

  /** The patches of the store's `set` calls (src/auth/authStore.ts:87, 92, 95, 104, 110, 113, 117). */
  const LoginStartPatch: Patch := NoChange.(isLoading := Put(true), error := Put(None))

  function LoginSuccessPatch(token: Option<string>, user: Option<User>): Patch {
    Patch(Put(token), Put(user), Put(true), Put(false), Put(None))
  }

  function LoginFailurePatch(message: string): Patch {
    NoChange.(error := Put(Some(message)), isAuthenticated := Put(false), isLoading := Put(false))
  }

  const LogoutPatch: Patch := NoChange.(token := Put(None), user := Put(None), isAuthenticated := Put(false), error := Put(None))

  function LoadUserPatch(user: Option<User>): Patch {
    NoChange.(user := Put(user), isAuthenticated := Put(true))
  }

  const LoadUserFailurePatch: Patch := NoChange.(token := Put(None), user := Put(None), isAuthenticated := Put(false))

  const ClearErrorPatch: Patch := NoChange.(error := Put(None))

  const DefaultLoginPath: string := "/auth/login"
  const DefaultMePath: string := "/auth/me"
  const DefaultTokenKey: string := "auth_token"
  const LoginFailedMessage: string := "Login failed"

  /** `AuthStoreConfig` as far as the model uses it; `None` is an omitted option. */
  datatype StoreConfig = StoreConfig(
    loginPath: Option<string>,
    mePath: Option<string>,
    tokenKey: Option<string>,
    onLogout: Option<ApiClient.Callback>)

  /** What a `login` caught: an `Error` (with its message) or any other thrown value. */
  datatype Thrown = ErrorObject(message: string) | NonError

  /** `err instanceof Error ? err.message : 'Login failed'`. */
  function ErrorMessage(t: Thrown): (m: string)
    ensures t.ErrorObject? ==> m == t.message
    ensures t.NonError? ==> m == LoginFailedMessage
  {
    match t
    case ErrorObject(m) => m
    case NonError => LoginFailedMessage
  }

  /**
   * The token a login response yielded. The default parser's `data.token as string` checks nothing:
   * a response without a `token` field gives `undefined` (NoToken), one with `token: null` gives
   * `null` (NullToken).
   */
  datatype ParsedToken = NoToken | NullToken | Token(value: string) {
    /** The session's `token` field after `set({ token })`: `undefined` and `null` both read as no token. */
    function InSession(): (t: Option<string>)
      ensures t.Some? <==> Token?
      ensures Token? ==> t.value == value
    {
      if Token? then Some(value) else None
    }
  }

  /** How the awaited part of `login` ended: a token and optional user parsed from the response, or a throw. */
  datatype LoginResult = LoggedIn(token: ParsedToken, user: Option<User>) | LoginThrew(thrown: Thrown)

  /**
   * What `localStorage.setItem` stores for the token, which it converts to a string: the string itself,
   * `"undefined"` for `undefined` and `"null"` for `null`.
   */
  function StoredForm(token: ParsedToken): (t: string)
    ensures token.Token? ==> t == token.value
    ensures token.NoToken? ==> t == "undefined"
    ensures token.NullToken? ==> t == "null"
  {
    match token
    case Token(v) => v
    case NoToken => "undefined"
    case NullToken => "null"
  }

  /** How the awaited request of `loadUser` ended (`None` is the empty-body `undefined`). */
  datatype LoadResult = Loaded(user: Option<User>) | LoadThrew

  /** The login result for a gateway outcome and a `parseLoginResponse` (which may itself throw). */
  function LoginResultOf<J>(o: ApiClient.Outcome<J>, parseLogin: Option<J> -> Result<(ParsedToken, Option<User>), Thrown>): (r: LoginResult)
    ensures o.Rejected? ==> r == LoginThrew(ErrorObject(o.failure.Message()))
    ensures o.Resolved? && parseLogin(o.value).Success? ==>
      r == LoggedIn(parseLogin(o.value).value.0, parseLogin(o.value).value.1)
    ensures o.Resolved? && parseLogin(o.value).Failure? ==> r == LoginThrew(parseLogin(o.value).error)
  {
    match o
    case Rejected(f) => LoginThrew(ErrorObject(f.Message()))
    case Resolved(v) =>
      match parseLogin(v)
      case Success(tu) => LoggedIn(tu.0, tu.1)
      case Failure(t) => LoginThrew(t)
  }

  /** The load result for a gateway outcome; `asUser` is the unchecked `apiGet<BaseUser>` cast. */
  function LoadResultOf<J>(o: ApiClient.Outcome<J>, asUser: J -> User): (r: LoadResult)
    ensures r.LoadThrew? <==> o.Rejected?
    ensures o.Resolved? && o.value.Some? ==> r == Loaded(Some(asUser(o.value.value)))
    ensures o == ApiClient.Resolved(None) ==> r == Loaded(None)
  {
    match o
    case Rejected(_) => LoadThrew
    case Resolved(v) => Loaded(if v.Some? then Some(asUser(v.value)) else None)
  }

  // ---------------------------------------------------------------------------------------------
  // The store's transitions on values: the session record together with the storage contents.

  datatype Snapshot = Snapshot(session: Session, storage: map<string, string>)

  /** The state `createAuthStore` starts in, read from the storage under `key`. */
  function Initial(key: string, storage: map<string, string>): (r: Snapshot)
    ensures r.storage == storage
    ensures r.session.token == Lookup(storage, key)
    ensures r.session.isAuthenticated <==> key in storage && storage[key] != ""
    ensures r.session.user == None && !r.session.isLoading && r.session.error == None
  {
    var stored := Lookup(storage, key);
    Snapshot(Session(stored, None, Truthy(stored), false, None), storage)
  }

  /** The part of `login` before the `await`. */
  function AfterLoginStart(s: Snapshot): (r: Snapshot)
    ensures r.storage == s.storage
    ensures r.session.isLoading && r.session.error == None
    ensures r.session.token == s.session.token && r.session.user == s.session.user
    ensures r.session.isAuthenticated == s.session.isAuthenticated
  {
    Snapshot(Merge(s.session, LoginStartPatch), s.storage)
  }

  /** The part of `login` after the `await`: persist and record the token, or record the failure. */
  function AfterLoginFinish(s: Snapshot, key: string, result: LoginResult): (r: Snapshot)
    ensures result.LoggedIn? ==> r.storage == s.storage[key := StoredForm(result.token)]
    ensures result.LoggedIn? ==> r.session == Session(result.token.InSession(), result.user, true, false, None)
    ensures result.LoginThrew? ==> r.storage == s.storage
    ensures result.LoginThrew? ==> r.session.error == Some(ErrorMessage(result.thrown))
    ensures result.LoginThrew? ==> !r.session.isAuthenticated && !r.session.isLoading
    ensures result.LoginThrew? ==> r.session.token == s.session.token && r.session.user == s.session.user
    ensures r.storage - {key} == s.storage - {key}
  {
    match result
    case LoggedIn(token, user) => Snapshot(Merge(s.session, LoginSuccessPatch(token.InSession(), user)), s.storage[key := StoredForm(token)])
    case LoginThrew(thrown) => Snapshot(Merge(s.session, LoginFailurePatch(ErrorMessage(thrown))), s.storage)
  }

  /** `logout`: the token leaves storage and the session; `isLoading` is not touched. */
  function AfterLogout(s: Snapshot, key: string): (r: Snapshot)
    ensures r.storage == s.storage - {key}
    ensures r.session == s.session.(token := None, user := None, isAuthenticated := false, error := None)
  {
    Snapshot(Merge(s.session, LogoutPatch), s.storage - {key})
  }

  /** The part of `loadUser` after the `await`: record the user, or drop the session silently. */
  function AfterLoadUser(s: Snapshot, key: string, result: LoadResult): (r: Snapshot)
    ensures result.Loaded? ==> r.storage == s.storage
    ensures result.Loaded? ==> r.session == s.session.(user := result.user, isAuthenticated := true)
    ensures result.LoadThrew? ==> r.storage == s.storage - {key}
    ensures result.LoadThrew? ==> r.session == s.session.(token := None, user := None, isAuthenticated := false)
    ensures r.session.error == s.session.error && r.session.isLoading == s.session.isLoading
  {
    match result
    case Loaded(user) => Snapshot(Merge(s.session, LoadUserPatch(user)), s.storage)
    case LoadThrew => Snapshot(Merge(s.session, LoadUserFailurePatch), s.storage - {key})
  }

  /** `clearError`. */
  function AfterClearError(s: Snapshot): (r: Snapshot)
    ensures r == Snapshot(s.session.(error := None), s.storage)
  {
    Snapshot(Merge(s.session, ClearErrorPatch), s.storage)
  }

  /** Calling `clearError` twice is calling it once; with no error it changes nothing. */
  lemma ClearErrorIdempotent(s: Snapshot)
    ensures AfterClearError(AfterClearError(s)) == AfterClearError(s)
    ensures s.session.error == None ==> AfterClearError(s) == s
  {
  }

  /** Every step the store can take. */
  datatype Action =
    | LoginStarted
    | LoginFinished(result: LoginResult)
    | LoggedOut
    | UserLoaded(load: LoadResult)
    | ErrorCleared

  function Next(s: Snapshot, key: string, a: Action): Snapshot {
    match a
    case LoginStarted => AfterLoginStart(s)
    case LoginFinished(result) => AfterLoginFinish(s, key, result)
    case LoggedOut => AfterLogout(s, key)
    case UserLoaded(load) => AfterLoadUser(s, key, load)
    case ErrorCleared => AfterClearError(s)
  }

  /** A sequence of steps, applied in order. */
  function Run(s: Snapshot, key: string, actions: seq<Action>): Snapshot
    decreases |actions|
  {
    if actions == [] then s else Run(Next(s, key, actions[0]), key, actions[1..])
  }

  /**
   * What the store keeps true, as long as nothing else writes the token key and every login response
   * carries a string token: the session token is the stored token, and a login in flight has no error recorded.
   */
  predicate Consistent(s: Snapshot, key: string) {
    && s.session.token == Lookup(s.storage, key)
    && (s.session.isLoading ==> s.session.error == None)
  }

  lemma InitialConsistent(key: string, storage: map<string, string>)
    ensures Consistent(Initial(key, storage), key)
  {
  }

  /** A step other than a login whose response had no string token. */
  predicate TokenParsed(a: Action) {
    a.LoginFinished? && a.result.LoggedIn? ==> a.result.token.Token?
  }

  lemma NextConsistent(s: Snapshot, key: string, a: Action)
    requires Consistent(s, key)
    requires TokenParsed(a)
    ensures Consistent(Next(s, key, a), key)
  {
  }

  /** Every run from a consistent state ends consistent. */
  lemma {:induction false} RunConsistent(s: Snapshot, key: string, actions: seq<Action>)
    requires Consistent(s, key)
    requires forall i :: 0 <= i < |actions| ==> TokenParsed(actions[i])
    ensures Consistent(Run(s, key, actions), key)
    decreases |actions|
  {
    if actions != [] {
      NextConsistent(s, key, actions[0]);
      assert forall i :: 0 <= i < |actions[1..]| ==> actions[1..][i] == actions[i + 1];
      RunConsistent(Next(s, key, actions[0]), key, actions[1..]);
    }
  }

  /**
   * A login response without a token breaks the agreement: the session holds no token and counts as
   * authenticated, while storage holds the text "undefined", which a store created afterwards reads back
   * as a non-empty token.
   */
  lemma LoginWithoutTokenStoresUndefined(key: string, storage: map<string, string>)
    ensures var r := AfterLoginFinish(AfterLoginStart(Initial(key, storage)), key, LoggedIn(NoToken, None));
      && r.session.token == None && r.session.isAuthenticated
      && r.storage[key] == "undefined"
      && !Consistent(r, key)
      && Initial(key, r.storage).session.token == Some("undefined")
      && Initial(key, r.storage).session.isAuthenticated
  {
  }

  /**
   * A login response with `token: null` breaks it the same way: storage holds the text "null", which a
   * store created afterwards reads back as a non-empty token.
   */
  lemma LoginWithNullTokenStoresNull(key: string, storage: map<string, string>)
    ensures var r := AfterLoginFinish(AfterLoginStart(Initial(key, storage)), key, LoggedIn(NullToken, None));
      && r.session.token == None && r.session.isAuthenticated
      && r.storage[key] == "null"
      && !Consistent(r, key)
      && Initial(key, r.storage).session.token == Some("null")
      && Initial(key, r.storage).session.isAuthenticated
  {
  }

  /** No step of the store touches a storage key other than its token key. */
  lemma {:induction false} RunKeepsOtherKeys(s: Snapshot, key: string, actions: seq<Action>)
    ensures Run(s, key, actions).storage - {key} == s.storage - {key}
    decreases |actions|
  {
    if actions != [] {
      var s1 := Next(s, key, actions[0]);
      assert s1.storage - {key} == s.storage - {key};
      RunKeepsOtherKeys(s1, key, actions[1..]);
    }
  }

  /** The token leaves the null meta-state only through a successful login. */
  lemma OnlyLoginAuthenticates(s: Snapshot, key: string, a: Action)
    requires s.session.token == None && Next(s, key, a).session.token != None
    ensures a.LoginFinished? && a.result.LoggedIn?
  {
  }

  /**
   * The token returns to null only through `logout`, a failed `loadUser`, or a login whose response
   * carried no string token.
   */
  lemma OnlyLogoutOrFailedLoadDeauthenticates(s: Snapshot, key: string, a: Action)
    requires s.session.token != None && Next(s, key, a).session.token == None
    ensures a == LoggedOut || a == UserLoaded(LoadThrew) || (a.LoginFinished? && a.result.LoggedIn? && !a.result.token.Token?)
  {
  }

  /**
   * `isAuthenticated == (token != null)` is not kept by the code: a stored empty token starts
   * unauthenticated with a token, a failed login keeps an earlier token while clearing the flag,
   * and a successful `loadUser` sets the flag without a token.
   */
  lemma AuthenticatedFlagCanDisagreeWithToken(key: string)
    ensures var s := Initial(key, map[key := ""]);
      s.session.token == Some("") && !s.session.isAuthenticated
    ensures var s := AfterLoginFinish(AfterLoginStart(Initial(key, map[key := "t"])), key, LoginThrew(NonError));
      s.session.token == Some("t") && !s.session.isAuthenticated && s.session.error == Some("Login failed")
    ensures var s := AfterLoadUser(AfterLogout(Initial(key, map[]), key), key, Loaded(None));
      s.session.token == None && s.session.isAuthenticated
  {
  }

  /**
   * A login the server refuses leaves the `HTTP <status>: <text>` message in `error`, whatever
   * `parseLoginResponse` is, and keeps the stored token (src/auth/authStore.test.ts:80-92).
   */
  lemma RefusedLoginRecordsHttpMessage<J>(s: Snapshot, key: string, res: ApiClient.Response,
                                          parse: string -> Result<J, string>,
                                          parseLogin: Option<J> -> Result<(ParsedToken, Option<User>), Thrown>)
    requires !res.ok
    ensures var r := AfterLoginFinish(AfterLoginStart(s), key, LoginResultOf(ApiClient.Interpret(res, parse), parseLogin));
      && r.session.error == Some(ApiClient.HttpMessage(res.status, ApiClient.ErrorText(res)))
      && !r.session.isAuthenticated && !r.session.isLoading
      && r.storage == s.storage
  {
  }

  /** The store object that `createAuthStore` returns. */
  class Store {
    const tokenKey: string
    const loginPath: string
    const mePath: string
    const onLogout: Option<ApiClient.Callback>
    const storage: Storage.KeyValueStorage

    var token: Option<string>
    var user: Option<User>
    var isAuthenticated: bool
    var isLoading: bool
    var error: Option<string>

    function Current(): Session
      reads this
    {
      Session(token, user, isAuthenticated, isLoading, error)
    }

    function Snap(): Snapshot
      reads this, storage
    {
      Snapshot(Current(), storage.items)
    }

    /** `createAuthStore(config)` with the given storage adapter. */
    constructor (config: StoreConfig, storage: Storage.KeyValueStorage)
      ensures tokenKey == config.tokenKey.GetOr(DefaultTokenKey)
      ensures loginPath == config.loginPath.GetOr(DefaultLoginPath)
      ensures mePath == config.mePath.GetOr(DefaultMePath)
      ensures onLogout == config.onLogout && this.storage == storage
      ensures Snap() == Initial(tokenKey, storage.items)
    {
      loginPath := config.loginPath.GetOr(DefaultLoginPath);
      mePath := config.mePath.GetOr(DefaultMePath);
      var key := config.tokenKey.GetOr(DefaultTokenKey);
      tokenKey := key;
      onLogout := config.onLogout;
      this.storage := storage;
      var stored := storage.GetItem(key);
      token := stored;
      user := None;
      var again := storage.GetItem(key);
      isAuthenticated := again.Some? && again.value != "";
      isLoading := false;
      error := None;
    }

    /** zustand's `set(patch)`. */
    method Set(p: Patch)
      modifies this
      ensures Current() == Merge(old(Current()), p)
    {
      if p.token.Put? { token := p.token.value; }
      if p.user.Put? { user := p.user.value; }
      if p.isAuthenticated.Put? { isAuthenticated := p.isAuthenticated.value; }
      if p.isLoading.Put? { isLoading := p.isLoading.value; }
      if p.error.Put? { error := p.error.value; }
    }

    /**
     * `login`, up to the `await`: returns the POST it sends. `body` is what `buildLoginBody(username, password)`
     * returned, `None` when it returned `undefined`, in which case `apiPost` sends no body.
     */
    method LoginStart<J>(api: ApiClient.Client<J>, body: Option<J>) returns (req: ApiClient.Request)
      modifies this
      ensures Snap() == AfterLoginStart(old(Snap()))
      ensures req == api.RequestFor(Some(ApiClient.Post), loginPath, api.Serialized(body))
    {
      Set(LoginStartPatch);
      req := api.RequestFor(Some(ApiClient.Post), loginPath, api.Serialized(body));
    }

    /** `login`, after the `await`; a failure is re-raised to the caller as `rethrown`. */
    method LoginFinish(result: LoginResult) returns (rethrown: Option<Thrown>)
      modifies this, storage
      ensures Snap() == AfterLoginFinish(old(Snap()), tokenKey, result)
      ensures rethrown.Some? <==> result.LoginThrew?
      ensures result.LoginThrew? ==> rethrown == Some(result.thrown)
    {
      match result {
        case LoggedIn(t, u) =>
          storage.SetItem(tokenKey, StoredForm(t));
          Set(LoginSuccessPatch(t.InSession(), u));
          rethrown := None;
        case LoginThrew(thrown) =>
          Set(LoginFailurePatch(ErrorMessage(thrown)));
          rethrown := Some(thrown);
      }
    }

    /** `logout`: `onLogoutCall` is the call made to `onLogout`, with the token read from storage first. */
    method Logout() returns (onLogoutCall: Option<(ApiClient.Callback, Option<string>)>)
      modifies this, storage
      ensures Snap() == AfterLogout(old(Snap()), tokenKey)
      ensures onLogoutCall.Some? <==> onLogout.Some?
      ensures onLogoutCall.Some? ==> onLogoutCall.value == (onLogout.value, Lookup(old(storage.items), tokenKey))
    {
      var stored := storage.GetItem(tokenKey);
      onLogoutCall := if onLogout.Some? then Some((onLogout.value, stored)) else None;
      storage.RemoveItem(tokenKey);
      Set(LogoutPatch);
    }

    /** `loadUser`, up to the `await`: the GET it sends; nothing is set before it. */
    function LoadUserRequest<J>(api: ApiClient.Client<J>): (req: ApiClient.Request)
      reads api, api.localStorage
      ensures req.verb == None && req.body == None
      ensures req.url == ApiClient.BaseUrl(api.config) + mePath
    {
      api.RequestFor(None, mePath, None)
    }

    /** `loadUser`, after the `await`; a failure is swallowed. */
    method LoadUserFinish(result: LoadResult)
      modifies this, storage
      ensures Snap() == AfterLoadUser(old(Snap()), tokenKey, result)
    {
      match result {
        case Loaded(u) =>
          Set(LoadUserPatch(u));
        case LoadThrew =>
          storage.RemoveItem(tokenKey);
          Set(LoadUserFailurePatch);
      }
    }

    /** `clearError`. */
    method ClearError()
      modifies this
      ensures Snap() == AfterClearError(old(Snap()))
    {
      Set(ClearErrorPatch);
    }
  }
}

=== FILE: client.dfy ===
/**
 * The request gateway of src/api/client.ts: a process-wide configuration that `configureApi` merges into,
 * request construction for the five helpers (base URL, headers, body), and the interpretation of the
 * response that `fetch` returns. `fetch` itself is not modelled: a helper is given what `fetch` settled
 * to (a response, or a network failure) and returns the request that went out together with what the
 * caller receives.
 * `JSON.stringify` and `JSON.parse` are the client's `stringify` and `parse` constants, left uninterpreted.
 */
module ApiClient {
  import opened Wrappers
  import Text
  import Storage

  /**
   * One optional property of the object passed to `configureApi`: absent, or present with a value
   * (`None` when the caller wrote the key with value `undefined`, which object spread copies too).
   */
  datatype Prop<T> = Absent | Present(value: Option<T>) {
    /** What reading the property yields: `undefined` when absent. */
    function Read(): Option<T> {
      if Present? then value else None
    }
  }

  /** `getToken`: a token provider, asked for every request; modelled as a fixed function, so it returns the same token until reconfigured. */
  type TokenProvider = () -> Option<string>

  /** A caller-supplied callback, known by its identity; a call to it is recorded as an event. */
  datatype Callback = Callback(id: nat)

  datatype Config = Config(baseUrl: Prop<string>, getToken: Prop<TokenProvider>, onResponseError: Prop<Callback>)

  /** The configuration before any call to `configureApi`: `{}`. */
  const EmptyConfig: Config := Config(Absent, Absent, Absent)

  const DefaultBaseUrl: string := "/api"
  const DefaultTokenKey: string := "auth_token"

  function Override<T>(current: Prop<T>, update: Prop<T>): Prop<T> {
    if update.Present? then update else current
  }

  /** `{ ...current, ...update }`: every property present in `update` wins, every other one is kept. */
  function Merge(current: Config, update: Config): (r: Config)
    ensures update.baseUrl.Present? ==> r.baseUrl == update.baseUrl
    ensures update.baseUrl.Absent? ==> r.baseUrl == current.baseUrl
    ensures update.getToken.Present? ==> r.getToken == update.getToken
    ensures update.getToken.Absent? ==> r.getToken == current.getToken
    ensures update.onResponseError.Present? ==> r.onResponseError == update.onResponseError
    ensures update.onResponseError.Absent? ==> r.onResponseError == current.onResponseError
  {
    Config(Override(current.baseUrl, update.baseUrl),
           Override(current.getToken, update.getToken),
           Override(current.onResponseError, update.onResponseError))
  }

  /** Two successive `configureApi` calls act as one call with the second update spread over the first. */
  lemma MergeSuccessive(c: Config, u1: Config, u2: Config)
    ensures Merge(Merge(c, u1), u2) == Merge(c, Merge(u1, u2))
  {
  }

  /** Merging `{}` changes nothing, and repeating a call changes nothing more. */
  lemma MergeNeutralAndIdempotent(c: Config, u: Config)
    ensures Merge(c, EmptyConfig) == c
    ensures Merge(Merge(c, u), u) == Merge(c, u)
  {
  }

  /** `getBaseUrl`: the configured base URL, or `/api` when it is absent or `undefined`. */
  function BaseUrl(c: Config): (url: string)
    ensures c.baseUrl.Read().Some? ==> url == c.baseUrl.Read().value
    ensures c.baseUrl.Read().None? ==> url == DefaultBaseUrl
  {
    c.baseUrl.Read().GetOr(DefaultBaseUrl)
  }

  /** A later `configureApi` call without `baseUrl` keeps the earlier one (src/api/client.test.ts:18-25). */
  lemma BaseUrlSurvivesUnrelatedUpdate(c: Config, u: Config)
    requires u.baseUrl.Absent?
    ensures BaseUrl(Merge(c, u)) == BaseUrl(c)
  {
  }

  /** The header dictionary of `authHeaders` for the token the provider returned. */
  function HeadersFor(token: Option<string>): (h: map<string, string>)
    ensures "Content-Type" in h && h["Content-Type"] == "application/json"
    ensures "Authorization" in h <==> Truthy(token)
    ensures "Authorization" in h ==> h["Authorization"] == "Bearer " + token.value
    ensures h.Keys <= {"Content-Type", "Authorization"}
  {
    var base := map["Content-Type" := "application/json"];
    if Truthy(token) then base["Authorization" := "Bearer " + token.value] else base
  }

  /** The HTTP verbs the helpers name; `apiGet` names none and leaves `fetch` to default to GET. */
  datatype Verb = Post | Put | Patch | Delete

  /** The `(url, init)` pair given to `fetch`; `body == None` when the init has no body or `body: undefined`. */
  datatype Request = Request(verb: Option<Verb>, url: string, headers: map<string, string>, body: Option<string>)

  /** What reading the response body as text produced. */
  datatype BodyText = Read(content: string) | ReadFailed(reason: string)

  /** The parts of a `fetch` response that `handleResponse` looks at. */
  datatype Response = Response(ok: bool, status: nat, text: BodyText, statusText: string)

  /** What the promise of `fetch` settled to: a response, or a rejection such as a network failure. */
  datatype Fetched = Responded(res: Response) | FetchFailed(reason: string)

  /** Why a helper's promise rejects. */
  datatype Failure =
    | HttpError(status: nat, text: string)   // a non-ok status
    | BodyError(reason: string)              // reading the body of an ok response failed
    | ParseError(reason: string)             // the body of an ok response is not JSON
    | NetworkError(reason: string)           // `fetch` itself rejected; passed through unchanged
  {
    /** The `message` of the thrown `Error`. */
    function Message(): string {
      match this
      case HttpError(status, text) => HttpMessage(status, text)
      case BodyError(reason) => reason
      case ParseError(reason) => reason
      case NetworkError(reason) => reason
    }
  }

  /** What a helper's promise settles to: a value (`None` is the empty-body `undefined`) or a failure. */
  datatype Outcome<J> = Resolved(value: Option<J>) | Rejected(failure: Failure)

  /** A recorded call `onResponseError(status, body)`. */
  datatype HookCall = HookCall(hook: Callback, status: nat, body: string)

  /** `HTTP <status>: <text>`. */
  function HttpMessage(status: nat, text: string): (m: string)
    ensures |m| >= 8 + |text| && m[..5] == "HTTP "
    ensures m[|m| - |text|..] == text
  {
    "HTTP " + Text.NatToString(status) + ": " + text
  }

  /** Reads status and body text back out of an error message; `None` if it is not of that form. */
  function ParseHttpMessage(m: string): Option<(nat, string)> {
    if |m| < 5 || m[..5] != "HTTP " then None
    else
      var rest := m[5..];
      var n := Text.DigitRun(rest);
      if n == 0 || |rest| < n + 2 || rest[n..n + 2] != ": " then None
      else Some((Text.DigitsToNat(rest[..n]), rest[n + 2..]))
  }

  /** The error message is unambiguous: status and body text are recovered from it exactly. */
  lemma HttpMessageRoundTrip(status: nat, text: string)
    ensures ParseHttpMessage(HttpMessage(status, text)) == Some((status, text))
  {
    var digits := Text.NatToString(status);
    var m := HttpMessage(status, text);
    assert m[..5] == "HTTP ";
    var rest := m[5..];
    assert rest == digits + (": " + text);
    Text.DigitRunOfConcat(digits, ": " + text);
    assert rest[..|digits|] == digits;
    assert rest[|digits|..|digits| + 2] == ": ";
    assert rest[|digits| + 2..] == text;
    Text.NatToStringRoundTrip(status);
  }

  /** The status appears in the message as written: an HTTP 401 failure mentions "401" (src/auth/authStore.test.ts:89). */
  lemma HttpMessageMentionsStatus(status: nat, text: string)
    ensures var m := HttpMessage(status, text);
      var d := Text.NatToString(status);
      m[5..5 + |d|] == d && m[5 + |d|..5 + |d| + 2] == ": " && m[5 + |d| + 2..] == text
  {
  }

  /** The body text reported for a failed response: the text, or `statusText` when it cannot be read. */
  function ErrorText(res: Response): (t: string)
    ensures res.text.Read? ==> t == res.text.content
    ensures res.text.ReadFailed? ==> t == res.statusText
  {
    match res.text
    case Read(t) => t
    case ReadFailed(_) => res.statusText
  }

  /** The branch logic of `handleResponse`. */
  function Interpret<J>(res: Response, parse: string -> Result<J, string>): (r: Outcome<J>)
    ensures !res.ok ==> r == Rejected(HttpError(res.status, ErrorText(res)))
    ensures !res.ok ==> r.failure.Message() == HttpMessage(res.status, ErrorText(res))
    ensures res.ok && res.text == Read("") ==> r == Resolved(None)
    ensures res.ok && res.text.ReadFailed? ==> r == Rejected(BodyError(res.text.reason))
    ensures res.ok && res.text.Read? && res.text.content != "" ==>
      match parse(res.text.content)
      case Success(v) => r == Resolved(Some(v))
      case Failure(e) => r == Rejected(ParseError(e))
    ensures r.Resolved? ==> res.ok
  {
    if !res.ok then Rejected(HttpError(res.status, ErrorText(res)))
    else match res.text
      case ReadFailed(reason) => Rejected(BodyError(reason))
      case Read(t) =>
        if t == "" then Resolved(None)
        else match parse(t)
          case Success(v) => Resolved(Some(v))
          case Failure(e) => Rejected(ParseError(e))
  }

  /** What a helper's promise settles to: a rejection of `fetch` passes through, a response is interpreted. */
  function Settle<J>(fetched: Fetched, parse: string -> Result<J, string>): (r: Outcome<J>)
    ensures fetched.FetchFailed? ==> r == Rejected(NetworkError(fetched.reason))
    ensures fetched.Responded? ==> r == Interpret(fetched.res, parse)
  {
    match fetched
    case FetchFailed(reason) => Rejected(NetworkError(reason))
    case Responded(res) => Interpret(res, parse)
  }

  /** The module-level state of src/api/client.ts: `globalConfig`, and the storage the default token provider reads. */
  class Client<J> {
    var config: Config
    const localStorage: Storage.KeyValueStorage
    const stringify: J -> string
    const parse: string -> Result<J, string>

    constructor (localStorage: Storage.KeyValueStorage, stringify: J -> string, parse: string -> Result<J, string>)
      ensures config == EmptyConfig
      ensures this.localStorage == localStorage && this.stringify == stringify && this.parse == parse
    {
      config := EmptyConfig;
      this.localStorage := localStorage;
      this.stringify := stringify;
      this.parse := parse;
    }

    /** `configureApi`. */
    method Configure(update: Config)
      modifies this
      ensures config == Merge(old(config), update)
    {
      config := Merge(config, update);
    }

    /** The token of `getToken ?? (() => localStorage.getItem('auth_token'))`. */
    function ProvidedToken(): (token: Option<string>)
      reads this, localStorage
      ensures config.getToken.Read().Some? ==> token == config.getToken.Read().value()
      ensures config.getToken.Read().None? ==> token == Lookup(localStorage.items, DefaultTokenKey)
    {
      match config.getToken.Read()
      case Some(provider) => provider()
      case None => Lookup(localStorage.items, DefaultTokenKey)
    }

    /** The request every helper sends: base URL and path concatenated, headers from the current token. */
    function RequestFor(verb: Option<Verb>, path: string, body: Option<string>): (req: Request)
      reads this, localStorage
      ensures req.url == BaseUrl(config) + path
      ensures req.headers == HeadersFor(ProvidedToken())
      ensures req.verb == verb && req.body == body
    {
      Request(verb, BaseUrl(config) + path, HeadersFor(ProvidedToken()), body)
    }

    /** `body !== undefined ? JSON.stringify(body) : undefined`. */
    function Serialized(body: Option<J>): (s: Option<string>)
      reads this
      ensures s.Some? <==> body.Some?
      ensures body.Some? ==> s.value == stringify(body.value)
    {
      if body.Some? then Some(stringify(body.value)) else None
    }

    /**
     * The `onResponseError` call a helper makes: one exactly when a response came back not ok and the
     * hook is configured, with the status and the body text; none when `fetch` rejected.
     */
    function HookCallFor(fetched: Fetched): (c: Option<HookCall>)
      reads this
      ensures c.Some? <==> fetched.Responded? && !fetched.res.ok && config.onResponseError.Read().Some?
      ensures c.Some? ==>
        c.value == HookCall(config.onResponseError.Read().value, fetched.res.status, ErrorText(fetched.res))
    {
      if fetched.Responded? && !fetched.res.ok && config.onResponseError.Read().Some? then
        Some(HookCall(config.onResponseError.Read().value, fetched.res.status, ErrorText(fetched.res)))
      else None
    }

    /** `authHeaders`: starts from `Content-Type` and adds `Authorization` only for a truthy token. */
    method AuthHeaders() returns (headers: map<string, string>)
      ensures headers == HeadersFor(ProvidedToken())
    {
      headers := map["Content-Type" := "application/json"];
      var token: Option<string>;
      match config.getToken.Read() {
        case Some(provider) => token := provider();
        case None => token := localStorage.GetItem(DefaultTokenKey);
      }
      if token.Some? && token.value != "" {
        headers := headers["Authorization" := "Bearer " + token.value];
      }
    }

    /**
     * `handleResponse`: for a failed response the hook (when configured) is called with status and
     * body text, and then the promise rejects; an ok response resolves as Interpret says.
     */
    method HandleResponse(res: Response) returns (outcome: Outcome<J>, hookCall: Option<HookCall>)
      ensures outcome == Interpret(res, parse)
      ensures hookCall.Some? <==> !res.ok && config.onResponseError.Read().Some?
      ensures hookCall.Some? ==>
        hookCall.value == HookCall(config.onResponseError.Read().value, res.status, ErrorText(res))
    {
      hookCall := None;
      if !res.ok {
        var text := match res.text case Read(t) => t case ReadFailed(_) => res.statusText;
        if config.onResponseError.Read().Some? {
          hookCall := Some(HookCall(config.onResponseError.Read().value, res.status, text));
        }
        outcome := Rejected(HttpError(res.status, text));
        return;
      }
      match res.text {
        case ReadFailed(reason) =>
          outcome := Rejected(BodyError(reason));
        case Read(t) =>
          if t == "" {
            outcome := Resolved(None);
          } else {
            match parse(t) {
              case Success(v) => outcome := Resolved(Some(v));
              case Failure(e) => outcome := Rejected(ParseError(e));
            }
          }
      }
    }

    /** `apiGet(path)`: no explicit method and no body. */
    method ApiGet(path: string, fetched: Fetched) returns (req: Request, outcome: Outcome<J>, hookCall: Option<HookCall>)
      ensures req == RequestFor(None, path, None)
      ensures outcome == Settle(fetched, parse)
      ensures hookCall == HookCallFor(fetched)
    {
      var headers := AuthHeaders();
      req := Request(None, BaseUrl(config) + path, headers, None);
      match fetched {
        case FetchFailed(reason) =>
          outcome, hookCall := Rejected(NetworkError(reason)), None;
        case Responded(res) =>
          outcome, hookCall := HandleResponse(res);
      }
    }

    /** `apiPost(path, body?)`: a body only when one is given. */
    method ApiPost(path: string, body: Option<J>, fetched: Fetched) returns (req: Request, outcome: Outcome<J>, hookCall: Option<HookCall>)
      ensures req == RequestFor(Some(Post), path, Serialized(body))
      ensures outcome == Settle(fetched, parse)
      ensures hookCall == HookCallFor(fetched)
    {
      var headers := AuthHeaders();
      req := Request(Some(Post), BaseUrl(config) + path, headers, if body.Some? then Some(stringify(body.value)) else None);
      match fetched {
        case FetchFailed(reason) =>
          outcome, hookCall := Rejected(NetworkError(reason)), None;
        case Responded(res) =>
          outcome, hookCall := HandleResponse(res);
      }
    }

    /** `apiPut(path, body?)`: a body only when one is given. */
    method ApiPut(path: string, body: Option<J>, fetched: Fetched) returns (req: Request, outcome: Outcome<J>, hookCall: Option<HookCall>)
      ensures req == RequestFor(Some(Put), path, Serialized(body))
      ensures outcome == Settle(fetched, parse)
      ensures hookCall == HookCallFor(fetched)
    {
      var headers := AuthHeaders();
      req := Request(Some(Put), BaseUrl(config) + path, headers, if body.Some? then Some(stringify(body.value)) else None);
      match fetched {
        case FetchFailed(reason) =>
          outcome, hookCall := Rejected(NetworkError(reason)), None;
        case Responded(res) =>
          outcome, hookCall := HandleResponse(res);
      }
    }

    /** `apiPatch(path, body)`: the body is always serialized. */
    method ApiPatch(path: string, body: J, fetched: Fetched) returns (req: Request, outcome: Outcome<J>, hookCall: Option<HookCall>)
      ensures req == RequestFor(Some(Patch), path, Some(stringify(body)))
      ensures outcome == Settle(fetched, parse)
      ensures hookCall == HookCallFor(fetched)
    {
      var headers := AuthHeaders();
      req := Request(Some(Patch), BaseUrl(config) + path, headers, Some(stringify(body)));
      match fetched {
        case FetchFailed(reason) =>
          outcome, hookCall := Rejected(NetworkError(reason)), None;
        case Responded(res) =>
          outcome, hookCall := HandleResponse(res);
      }
    }

    /** `apiDelete(path)`: no body. */
    method ApiDelete(path: string, fetched: Fetched) returns (req: Request, outcome: Outcome<J>, hookCall: Option<HookCall>)
      ensures req == RequestFor(Some(Delete), path, None)
      ensures outcome == Settle(fetched, parse)
      ensures hookCall == HookCallFor(fetched)
    {
      var headers := AuthHeaders();
      req := Request(Some(Delete), BaseUrl(config) + path, headers, None);
      match fetched {
        case FetchFailed(reason) =>
          outcome, hookCall := Rejected(NetworkError(reason)), None;
        case Responded(res) =>
          outcome, hookCall := HandleResponse(res);
      }
    }
  }
}

=== FILE: data_table.dfy ===
/**
 * The table of src/components/DataTable.tsx: 1-based pages, a page size clamped to at least one row,
 * client-side sorting unless the parent handles it (`onSort`), and nulls first in ascending order.
 * The derived values of a render are functions of the props and the two state cells; the click handlers
 * are methods of the class holding those cells. `localeCompare` is the parameter `collate`.
 */
module DataTable {
  import opened Wrappers
  import opened JsValue
  import JsArray
  import Text

  datatype Direction = Asc | Desc

  /** `SortState`. */
  datatype SortState = SortState(key: string, direction: Direction)

  /** A column as the handlers see it: its key and whether it is sortable (label and rendering left out). */
  datatype Column = Column(key: string, sortable: bool)

  /** The key React gets for a row. */
  datatype RowKey = KeyStr(s: string) | KeyNum(n: int)

  const DefaultPageSize: int := 10

  /** The `pageSize` prop with its default applied. */
  function PageSizeOrDefault(pageSize: Option<int>): (r: int)
    ensures pageSize.Some? ==> r == pageSize.value
    ensures pageSize.None? ==> r == DefaultPageSize && SafePageSize(r) == r
  {
    pageSize.GetOr(DefaultPageSize)
  }

  /** `Math.max(1, pageSize)`. */
  function SafePageSize(pageSize: int): (r: int)
    ensures r >= 1 && r >= pageSize
    ensures r == 1 || r == pageSize
  {
    if pageSize >= 1 then pageSize else 1
  }

  /** `Math.ceil(len / size)` for a positive size. */
  function CeilDiv(len: nat, size: int): (q: nat)
    requires size >= 1
    ensures len == 0 ==> q == 0
    ensures len > 0 ==> (q - 1) * size < len <= q * size
  {
    var q := (len + size - 1) / size;
    assert len + size - 1 == q * size + (len + size - 1) % size;
    q
  }

  /** `Math.max(1, Math.ceil(len / safePageSize))`: the fewest pages of that size that hold every row. */
  function TotalPages(len: nat, pageSize: int): (r: int)
    ensures r >= 1
    ensures len == 0 ==> r == 1
    ensures len > 0 ==> (r - 1) * SafePageSize(pageSize) < len <= r * SafePageSize(pageSize)
  {
    var q := CeilDiv(len, SafePageSize(pageSize));
    if q >= 1 then q else 1
  }

  /** `Math.min(currentPage, totalPages)`. */
  function SafePage(currentPage: int, totalPages: int): (r: int)
    ensures r <= totalPages && r <= currentPage
    ensures r == currentPage || r == totalPages
    ensures 1 <= currentPage && 1 <= totalPages ==> 1 <= r
  {
    if currentPage <= totalPages then currentPage else totalPages
  }

  /** The comparator exactly as the source writes it: a `null` first value compares below everything, itself included. */
  function CompareAsWritten(a: Value, b: Value, dir: Direction, collate: (string, string) -> int): (r: int)
    ensures a.Null? ==> r == (if dir == Asc then -1 else 1)
    ensures !a.Null? && b.Null? ==> r == (if dir == Asc then 1 else -1)
    ensures a.Num? && b.Num? ==> r == (if dir == Asc then a.n - b.n else b.n - a.n)
    ensures !a.Null? && !b.Null? && !(a.Num? && b.Num?) ==>
      r == (if dir == Asc then collate(ToString(a), ToString(b)) else -collate(ToString(a), ToString(b)))
  {
    var cmp :=
      if a.Null? then -1
      else if b.Null? then 1
      else if a.Num? && b.Num? then a.n - b.n
      else collate(ToString(a), ToString(b));
    if dir == Asc then cmp else -cmp
  }

  /**
   * Two `null` sort values compare below each other, so the comparator is not consistent in the sense
   * `Array.prototype.sort` requires (a value must compare equal to itself), and the order among rows
   * with a `null` sort value is left to the engine.
   */
  lemma CompareAsWrittenInconsistent(dir: Direction, collate: (string, string) -> int)
    ensures CompareAsWritten(Null, Null, dir, collate) != 0
  {
  }

  /** The comparator with two `null` values comparing equal; otherwise that of the source. */
  function Compare(a: Value, b: Value, dir: Direction, collate: (string, string) -> int): (r: int)
    ensures a.Null? && b.Null? ==> r == 0
    ensures a.Null? && !b.Null? ==> (r < 0 <==> dir == Asc) && r != 0
    ensures !a.Null? && b.Null? ==> (r > 0 <==> dir == Asc) && r != 0
    ensures a.Num? && b.Num? ==> r == (if dir == Asc then a.n - b.n else b.n - a.n)
    ensures !a.Null? && !b.Null? && !(a.Num? && b.Num?) ==>
      r == (if dir == Asc then collate(ToString(a), ToString(b)) else -collate(ToString(a), ToString(b)))
  {
    var cmp :=
      if a.Null? && b.Null? then 0
      else if a.Null? then -1
      else if b.Null? then 1
      else if a.Num? && b.Num? then a.n - b.n
      else collate(ToString(a), ToString(b));
    if dir == Asc then cmp else -cmp
  }

  /**
   * Given a `localeCompare` that is antisymmetric on the two strings involved, the comparator is
   * antisymmetric, and every value compares equal to itself.
   */
  lemma CompareConsistent(a: Value, b: Value, dir: Direction, collate: (string, string) -> int)
    requires !a.Null? && !b.Null? ==> Sign(collate(ToString(a), ToString(b))) == -Sign(collate(ToString(b), ToString(a)))
    ensures Sign(Compare(a, b, dir, collate)) == -Sign(Compare(b, a, dir, collate))
    ensures a == b ==> Compare(a, b, dir, collate) == 0
  {
  }

  /** Two sort values that are not both numbers, unless one of them is `null`, are both non-numbers. */
  predicate SameKind(a: Value, b: Value) {
    !a.Null? && !b.Null? ==> (a.Num? <==> b.Num?)
  }

  /**
   * Given a collation, the comparator is a total preorder on values of one kind (numbers, or values
   * compared as strings), `null` included.
   */
  lemma CompareTotalPreorder(a: Value, b: Value, c: Value, dir: Direction, collate: (string, string) -> int)
    requires Collation(collate)
    requires SameKind(a, b) && SameKind(b, c) && SameKind(a, c)
    ensures Compare(a, b, dir, collate) <= 0 || Compare(b, a, dir, collate) <= 0
    ensures Compare(a, b, dir, collate) <= 0 && Compare(b, c, dir, collate) <= 0 ==> Compare(a, c, dir, collate) <= 0
  {
    if !a.Null? && !b.Null? {
      assert Sign(collate(ToString(a), ToString(b))) == -Sign(collate(ToString(b), ToString(a)));
    }
    if !a.Null? && !b.Null? && !c.Null? && !a.Num? {
      var x, y, z := ToString(a), ToString(b), ToString(c);
      if dir == Desc && collate(y, x) <= 0 && collate(z, y) <= 0 {
        assert collate(z, x) <= 0;
      }
    }
  }

  /**
   * A column that mixes numbers with strings is not ordered consistently: 9 comes before 10 as numbers,
   * 10 before "5" and "5" before 9 as strings, under any collation that orders digit strings by their first digit.
   */
  lemma MixedColumnCycle(dir: Direction, collate: (string, string) -> int)
    requires collate("10", "5") < 0 && collate("5", "9") < 0
    ensures Compare(Num(9), Num(10), Asc, collate) < 0
    ensures Compare(Num(10), Str("5"), Asc, collate) < 0
    ensures Compare(Str("5"), Num(9), Asc, collate) < 0
  {
    assert Text.IntToString(10) == "10" by {
      assert Text.NatToString(10) == Text.NatToString(1) + [Text.DigitChar(0)];
    }
    assert Text.IntToString(9) == "9";
  }

  /** The row comparator for a sort state. */
  function RowOrder(st: SortState, collate: (string, string) -> int): (Row, Row) -> int {
    (x: Row, y: Row) => Compare(Cell(x, st.key), Cell(y, st.key), st.direction, collate)
  }

  /** `sortedData`: the rows in input order when the parent sorts (`onSort`) or no sort is chosen, else sorted. */
  function SortedData(data: seq<Row>, hasOnSort: bool, sort: Option<SortState>, collate: (string, string) -> int): (r: seq<Row>)
    ensures multiset(r) == multiset(data)
    ensures hasOnSort || sort.None? ==> r == data
  {
    if hasOnSort then data
    else match sort
      case None => data
      case Some(st) => JsArray.Sort(data, RowOrder(st, collate))
  }

  /** Rows whose sort value is `null` come first in ascending order and last in descending order. */
  lemma SortedNullPlacement(data: seq<Row>, st: SortState, collate: (string, string) -> int)
    ensures var r := SortedData(data, false, Some(st), collate);
      st.direction == Asc ==>
        forall i, j :: 0 <= i < j < |r| && Cell(r[i], st.key) != Null ==> Cell(r[j], st.key) != Null
    ensures var r := SortedData(data, false, Some(st), collate);
      st.direction == Desc ==>
        forall i, j :: 0 <= i < j < |r| && Cell(r[i], st.key) == Null ==> Cell(r[j], st.key) == Null
  {
    var cmp := RowOrder(st, collate);
    if st.direction == Asc {
      var p := (x: Row) => Cell(x, st.key) != Null;
      forall x, y | x in data && y in data && !p(x) && p(y)
        ensures cmp(x, y) <= 0 && cmp(y, x) > 0
      {
        assert cmp(x, y) == Compare(Cell(x, st.key), Cell(y, st.key), st.direction, collate);
        assert cmp(y, x) == Compare(Cell(y, st.key), Cell(x, st.key), st.direction, collate);
      }
      JsArray.SortPartitioned(data, cmp, p);
    } else {
      var p := (x: Row) => Cell(x, st.key) == Null;
      forall x, y | x in data && y in data && !p(x) && p(y)
        ensures cmp(x, y) <= 0 && cmp(y, x) > 0
      {
        assert cmp(x, y) == Compare(Cell(x, st.key), Cell(y, st.key), st.direction, collate);
        assert cmp(y, x) == Compare(Cell(y, st.key), Cell(x, st.key), st.direction, collate);
      }
      JsArray.SortPartitioned(data, cmp, p);
    }
  }

  /**
   * With a collation and a sort column whose values are all numbers or all compared as strings
   * (`null` aside), the client-side sort puts the rows in comparator order.
   */
  lemma SortedDataOrdered(data: seq<Row>, st: SortState, collate: (string, string) -> int)
    requires Collation(collate)
    requires forall x, y :: x in data && y in data ==> SameKind(Cell(x, st.key), Cell(y, st.key))
    ensures var r := SortedData(data, false, Some(st), collate);
      forall i, j :: 0 <= i < j < |r| ==> Compare(Cell(r[i], st.key), Cell(r[j], st.key), st.direction, collate) <= 0
  {
    var cmp := RowOrder(st, collate);
    forall x, y, z | x in data && y in data && z in data
      ensures cmp(x, y) <= 0 || cmp(y, x) <= 0
      ensures cmp(x, y) <= 0 && cmp(y, z) <= 0 ==> cmp(x, z) <= 0
    {
      CompareTotalPreorder(Cell(x, st.key), Cell(y, st.key), Cell(z, st.key), st.direction, collate);
    }
    assert JsArray.TotalPreorderOn(data, cmp);
    JsArray.SortOrdered(data, cmp);
    var r := SortedData(data, false, Some(st), collate);
    forall i, j | 0 <= i < j < |r| ensures Compare(Cell(r[i], st.key), Cell(r[j], st.key), st.direction, collate) <= 0 {
      assert cmp(r[i], r[j]) <= 0;
    }
  }

  /** `pageData`: rows `(page - 1) * size` up to `page * size` of the sorted rows. */
  function PageData<T>(sorted: seq<T>, safePage: int, size: int): (r: seq<T>)
    ensures safePage >= 1 && size >= 1 ==> |r| <= size
    ensures safePage >= 1 && size >= 1 && (safePage - 1) * size <= |sorted| ==>
      r == sorted[(safePage - 1) * size..if safePage * size <= |sorted| then safePage * size else |sorted|]
  {
    JsArray.Slice(sorted, (safePage - 1) * size, safePage * size)
  }

  /** Pages 1 to n, one after another. */
  function PagesUpTo<T>(sorted: seq<T>, size: int, n: nat): seq<T>
    requires size >= 1
  {
    if n == 0 then [] else PagesUpTo(sorted, size, n - 1) + PageData(sorted, n, size)
  }

  /** Page `m + 1` is the slice from `m * size` to the start of the page after it. */
  lemma PageDataIsSlice<T>(sorted: seq<T>, m: nat, size: int)
    requires size >= 1
    ensures 0 <= m * size <= (m + 1) * size
    ensures PageData(sorted, m + 1, size) == JsArray.Slice(sorted, m * size, (m + 1) * size)
  {
  }

  lemma {:induction false} PagesUpToPrefix<T>(sorted: seq<T>, size: int, n: nat)
    requires size >= 1
    ensures PagesUpTo(sorted, size, n) == sorted[..if n * size <= |sorted| then n * size else |sorted|]
  {
    if n > 0 {
      var m: nat := n - 1;
      assert m + 1 == n;
      PagesUpToPrefix(sorted, size, m);
      PageDataIsSlice(sorted, m, size);
      JsArray.SliceExtendsPrefix(sorted, m * size, (m + 1) * size);
    }
  }

  /** Pages 1 to `totalPages` together show every sorted row once, in order. */
  lemma PagesCoverRows<T>(sorted: seq<T>, pageSize: int)
    ensures PagesUpTo(sorted, SafePageSize(pageSize), TotalPages(|sorted|, pageSize)) == sorted
  {
    PagesUpToPrefix(sorted, SafePageSize(pageSize), TotalPages(|sorted|, pageSize));
  }

  /** The row at position `idx` of a page is the sorted row at the absolute index the default key uses. */
  lemma PageRowAt<T>(sorted: seq<T>, safePage: int, size: int, idx: nat)
    requires safePage >= 1 && size >= 1
    requires idx < |PageData(sorted, safePage, size)|
    ensures AbsoluteIndex(safePage, size, idx) < |sorted|
    ensures PageData(sorted, safePage, size)[idx] == sorted[AbsoluteIndex(safePage, size, idx)]
  {
    var m: nat := safePage - 1;
    assert m + 1 == safePage;
    PageDataIsSlice(sorted, m, size);
    JsArray.SliceAt(sorted, m * size, (m + 1) * size, idx);
  }

  /** `(safePage - 1) * safePageSize + idx`. */
  function AbsoluteIndex(safePage: int, size: int, idx: nat): int {
    (safePage - 1) * size + idx
  }

  /** `getRowKey`: the `rowKey` prop if given; else `row.id` when it is a string or a number; else the index. */
  function GetRowKey(rowKey: Option<(Row, int) -> RowKey>, row: Row, absoluteIdx: int): (k: RowKey)
    ensures rowKey.Some? ==> k == rowKey.value(row, absoluteIdx)
    ensures rowKey.None? ==>
      match Cell(row, "id")
      case Str(s) => k == KeyStr(s)
      case Num(n) => k == KeyNum(n)
      case _ => k == KeyNum(absoluteIdx)
  {
    if rowKey.Some? then rowKey.value(row, absoluteIdx)
    else match Cell(row, "id")
      case Str(s) => KeyStr(s)
      case Num(n) => KeyNum(n)
      case _ => KeyNum(absoluteIdx)
  }

  /** A row whose `id` is a string or a number, which `getRowKey` uses as the key. */
  predicate HasId(row: Row) {
    Cell(row, "id").Str? || Cell(row, "id").Num?
  }

  /**
   * Without a `rowKey` prop, the rows of a page get distinct keys when no row has an id, or when every
   * row has one and the ids differ.
   */
  lemma DefaultKeysDistinct(rows: seq<Row>, safePage: int, size: int, i: nat, j: nat)
    requires i < j < |rows|
    requires || (forall k :: 0 <= k < |rows| ==> !HasId(rows[k]))
             || (&& (forall k :: 0 <= k < |rows| ==> HasId(rows[k]))
                 && (forall k, l :: 0 <= k < l < |rows| ==> Cell(rows[k], "id") != Cell(rows[l], "id")))
    ensures GetRowKey(None, rows[i], AbsoluteIndex(safePage, size, i)) != GetRowKey(None, rows[j], AbsoluteIndex(safePage, size, j))
  {
    assert !HasId(rows[i]) ==> !HasId(rows[j]);
  }

  /** When only some rows have ids, a numeric id can equal another row's index: row 0 with id 1 and row 1 without one. */
  lemma DefaultKeysCollideWithPartialIds()
    ensures GetRowKey(None, map["id" := Num(1)], AbsoluteIndex(1, 10, 0)) == GetRowKey(None, map[], AbsoluteIndex(1, 10, 1))
  {
  }

  /** The direction `handleSort` picks: `desc` exactly when the same column is sorted ascending. */
  function NextDirection(current: Option<SortState>, key: string): (d: Direction)
    ensures d == Desc <==> current == Some(SortState(key, Asc))
  {
    if current.Some? && current.value.key == key && current.value.direction == Asc then Desc else Asc
  }

  /** Clicking a sortable column three times goes ascending, descending, ascending again (src/components/DataTable.test.tsx:88-105). */
  lemma SortClicksCycle(start: Option<SortState>, key: string)
    requires start.None? || start.value.key != key
    ensures var d1 := NextDirection(start, key);
      var d2 := NextDirection(Some(SortState(key, d1)), key);
      var d3 := NextDirection(Some(SortState(key, d2)), key);
      d1 == Asc && d2 == Desc && d3 == Asc
  {
  }

  /** `Math.max(1, Math.min(page, totalPages))`: the page `handlePage` stores and reports. */
  function ClampPage(page: int, totalPages: int): (p: int)
    ensures p >= 1
    ensures totalPages >= 1 ==> p <= totalPages
    ensures 1 <= page <= totalPages ==> p == page
  {
    var m := if page <= totalPages then page else totalPages;
    if m >= 1 then m else 1
  }

  /** Pagination controls show exactly when Next is enabled on the first page. */
  function ShowPagination(totalPages: int): (r: bool)
    ensures r <==> !NextDisabled(1, totalPages)
  {
    totalPages > 1
  }

  /** Pagination shows exactly when the rows do not fit on one page (src/components/DataTable.test.tsx:82-86). */
  lemma PaginationShownExactlyWhenRowsOverflow(len: nat, pageSize: int)
    ensures ShowPagination(TotalPages(len, pageSize)) <==> len > SafePageSize(pageSize)
  {
    var size := SafePageSize(pageSize);
    var r := TotalPages(len, pageSize);
    if len > size {
      assert r * size > 1 * size;
    } else if len > 0 {
      assert (r - 1) * size < 1 * size;
    }
  }

  /** Previous is disabled, on a valid page, exactly on the first one. */
  function PreviousDisabled(safePage: int): (r: bool)
    ensures safePage >= 1 ==> (r <==> safePage == 1)
  {
    safePage <= 1
  }

  /** Next is disabled on a valid page exactly when clamping the next page stays put. */
  function NextDisabled(safePage: int, totalPages: int): (r: bool)
    ensures 1 <= safePage <= totalPages ==> (r <==> ClampPage(safePage + 1, totalPages) == safePage)
  {
    safePage >= totalPages
  }

  /** A page button is disabled exactly when its click would leave the page where it is. */
  lemma ButtonsDisabledExactlyWhenNoMove(safePage: int, totalPages: int)
    requires 1 <= safePage <= totalPages
    ensures PreviousDisabled(safePage) <==> ClampPage(safePage - 1, totalPages) == safePage
    ensures NextDisabled(safePage, totalPages) <==> ClampPage(safePage + 1, totalPages) == safePage
    ensures !PreviousDisabled(safePage) ==> ClampPage(safePage - 1, totalPages) == safePage - 1
    ensures !NextDisabled(safePage, totalPages) ==> ClampPage(safePage + 1, totalPages) == safePage + 1
  {
  }

  /** The component's state cells `currentPage` and `sortState`. */
  class TableState {
    var currentPage: int
    var sortState: Option<SortState>

    ghost predicate Valid()
      reads this
    {
      currentPage >= 1
    }

    constructor ()
      ensures Valid()
      ensures currentPage == 1 && sortState == None
    {
      currentPage := 1;
      sortState := None;
    }

    /** `safePage` for data of `dataLength` rows: always a page of that data. */
    function ShownPage(dataLength: nat, pageSize: int): (r: int)
      reads this
      requires Valid()
      ensures 1 <= r <= TotalPages(dataLength, pageSize)
      ensures currentPage <= TotalPages(dataLength, pageSize) ==> r == currentPage
    {
      SafePage(currentPage, TotalPages(dataLength, pageSize))
    }

    /** `handleSort(col)`: `onSortCall` is the call made to `onSort`, present only when the prop is. */
    method HandleSort(col: Column, hasOnSort: bool) returns (onSortCall: Option<SortState>)
      requires Valid()
      modifies this
      ensures Valid()
      ensures !col.sortable ==> sortState == old(sortState) && onSortCall == None
      ensures col.sortable ==> sortState == Some(SortState(col.key, NextDirection(old(sortState), col.key)))
      ensures col.sortable && hasOnSort ==> onSortCall == sortState
      ensures !hasOnSort ==> onSortCall == None
      ensures currentPage == old(currentPage)
    {
      onSortCall := None;
      if !col.sortable {
        return;
      }
      var newDirection :=
        if sortState.Some? && sortState.value.key == col.key && sortState.value.direction == Asc then Desc else Asc;
      var newSort := SortState(col.key, newDirection);
      sortState := Some(newSort);
      if hasOnSort {
        onSortCall := Some(newSort);
      }
    }

    /** `handlePage(page)`: clamp, store, and report to `onPageChange` when it is given. */
    method HandlePage(page: int, totalPages: int, hasOnPageChange: bool) returns (onPageChangeCall: Option<int>)
      requires Valid()
      modifies this
      ensures Valid()
      ensures currentPage == ClampPage(page, totalPages)
      ensures onPageChangeCall == if hasOnPageChange then Some(currentPage) else None
      ensures sortState == old(sortState)
    {
      var upper := if page <= totalPages then page else totalPages;
      var p := if upper >= 1 then upper else 1;
      currentPage := p;
      onPageChangeCall := if hasOnPageChange then Some(p) else None;
    }
  }
}

=== FILE: data_table_nested.dfy ===
/**
 * The table of src/components/DataTable/DataTable.tsx: 0-based pages, `pageSize <= 0` meaning no
 * pagination, nulls last in both directions, and a sort click that returns to the first page. The
 * memoised values of a render are functions of the props and the three state cells; the click handlers
 * are methods of the class holding those cells. `localeCompare(..., {numeric: true})` is the parameter `collate`.
 */
module DataTableNested {
  import opened Wrappers
  import opened JsValue
  import JsArray

  datatype Direction = Asc | Desc

  const DefaultPageSize: int := 10

  /** The `pageSize` prop with its default applied. */
  function PageSizeOrDefault(pageSize: Option<int>): (r: int)
    ensures pageSize.Some? ==> r == pageSize.value
    ensures pageSize.None? ==> r == DefaultPageSize && r > 0
  {
    pageSize.GetOr(DefaultPageSize)
  }

  /** The comparator: `null` values last whatever the direction; only the comparison of two values is negated. */
  function Compare(a: Value, b: Value, dir: Direction, collate: (string, string) -> int): (r: int)
    ensures a.Null? && b.Null? ==> r == 0
    ensures a.Null? && !b.Null? ==> r == 1
    ensures !a.Null? && b.Null? ==> r == -1
    ensures !a.Null? && !b.Null? ==>
      r == (if dir == Asc then collate(ToString(a), ToString(b)) else -collate(ToString(a), ToString(b)))
  {
    if a.Null? && b.Null? then 0
    else if a.Null? then 1
    else if b.Null? then -1
    else
      var cmp := collate(ToString(a), ToString(b));
      if dir == Asc then cmp else -cmp
  }

  /**
   * Given a `localeCompare` that is antisymmetric on the two strings involved, the comparator is
   * antisymmetric, and every value compares equal to itself.
   */
  lemma CompareConsistent(a: Value, b: Value, dir: Direction, collate: (string, string) -> int)
    requires !a.Null? && !b.Null? ==> Sign(collate(ToString(a), ToString(b))) == -Sign(collate(ToString(b), ToString(a)))
    ensures Sign(Compare(a, b, dir, collate)) == -Sign(Compare(b, a, dir, collate))
    ensures a == b ==> Compare(a, b, dir, collate) == 0
  {
  }

  function RowOrder(key: string, dir: Direction, collate: (string, string) -> int): (Row, Row) -> int {
    (x: Row, y: Row) => Compare(Cell(x, key), Cell(y, key), dir, collate)
  }

  /** `sorted`: the data itself when no (or the empty) sort key is set, else a sorted copy. */
  function Sorted(data: seq<Row>, sortKey: Option<string>, dir: Direction, collate: (string, string) -> int): (r: seq<Row>)
    ensures multiset(r) == multiset(data)
    ensures sortKey.None? || sortKey == Some("") ==> r == data
  {
    if sortKey.None? || sortKey.value == "" then data
    else JsArray.Sort(data, RowOrder(sortKey.value, dir, collate))
  }

  /** Rows whose sort value is `null` or missing come after all others, ascending and descending alike. */
  lemma SortedNullsLast(data: seq<Row>, key: string, dir: Direction, collate: (string, string) -> int)
    requires key != ""
    ensures var r := Sorted(data, Some(key), dir, collate);
      forall i, j :: 0 <= i < j < |r| && Cell(r[i], key) == Null ==> Cell(r[j], key) == Null
  {
    var cmp := RowOrder(key, dir, collate);
    var p := (x: Row) => Cell(x, key) == Null;
    forall x, y | x in data && y in data && !p(x) && p(y)
      ensures cmp(x, y) <= 0 && cmp(y, x) > 0
    {
      assert cmp(x, y) == Compare(Cell(x, key), Cell(y, key), dir, collate);
      assert cmp(y, x) == Compare(Cell(y, key), Cell(x, key), dir, collate);
    }
    JsArray.SortPartitioned(data, cmp, p);
  }

  /** Given a collation, the comparator is a total preorder on values: nulls form one class after all others. */
  lemma CompareTotalPreorder(a: Value, b: Value, c: Value, dir: Direction, collate: (string, string) -> int)
    requires Collation(collate)
    ensures Compare(a, b, dir, collate) <= 0 || Compare(b, a, dir, collate) <= 0
    ensures Compare(a, b, dir, collate) <= 0 && Compare(b, c, dir, collate) <= 0 ==> Compare(a, c, dir, collate) <= 0
  {
    if !a.Null? && !b.Null? {
      assert Sign(collate(ToString(a), ToString(b))) == -Sign(collate(ToString(b), ToString(a)));
    }
    if !a.Null? && !b.Null? && !c.Null? {
      var x, y, z := ToString(a), ToString(b), ToString(c);
      if dir == Desc && collate(y, x) <= 0 && collate(z, y) <= 0 {
        assert collate(z, x) <= 0;
      }
    }
  }

  /** Sorting by a key with a collation puts the rows in comparator order: ascending or descending values, nulls last. */
  lemma SortedOrdered(data: seq<Row>, key: string, dir: Direction, collate: (string, string) -> int)
    requires key != ""
    requires Collation(collate)
    ensures var r := Sorted(data, Some(key), dir, collate);
      forall i, j :: 0 <= i < j < |r| ==> Compare(Cell(r[i], key), Cell(r[j], key), dir, collate) <= 0
  {
    var cmp := RowOrder(key, dir, collate);
    forall x, y, z | x in data && y in data && z in data
      ensures cmp(x, y) <= 0 || cmp(y, x) <= 0
      ensures cmp(x, y) <= 0 && cmp(y, z) <= 0 ==> cmp(x, z) <= 0
    {
      CompareTotalPreorder(Cell(x, key), Cell(y, key), Cell(z, key), dir, collate);
    }
    assert JsArray.TotalPreorderOn(data, cmp);
    JsArray.SortOrdered(data, cmp);
    var r := Sorted(data, Some(key), dir, collate);
    forall i, j | 0 <= i < j < |r| ensures Compare(Cell(r[i], key), Cell(r[j], key), dir, collate) <= 0 {
      assert cmp(r[i], r[j]) <= 0;
    }
  }

  /** Whatever the collation, a row with a strictly least value under `cmp` comes first after sorting. */
  lemma LeastComesFirst(data: seq<Row>, key: string, dir: Direction, collate: (string, string) -> int, k: nat)
    requires key != "" && Collation(collate) && k < |data|
    requires forall j :: 0 <= j < |data| && j != k ==> Compare(Cell(data[j], key), Cell(data[k], key), dir, collate) > 0
    ensures |Sorted(data, Some(key), dir, collate)| == |data|
    ensures Sorted(data, Some(key), dir, collate)[0] == data[k]
  {
    var r := Sorted(data, Some(key), dir, collate);
    assert |r| == |multiset(r)| == |multiset(data)| == |data|;
    SortedOrdered(data, key, dir, collate);
    assert data[k] in multiset(r);
    var m :| 0 <= m < |r| && r[m] == data[k];
    assert r[0] in multiset(data);
    var j :| 0 <= j < |data| && data[j] == r[0];
    assert m > 0 ==> Compare(Cell(r[0], key), Cell(r[m], key), dir, collate) <= 0;
  }

  /**
   * Sorting three rows named Alpha, Beta and Gamma, as in src/components/DataTable/DataTable.test.tsx:53-72:
   * Alpha comes first ascending and Gamma first descending, for any collation that orders the three names.
   */
  lemma SortByNameExample(rows: seq<Row>, collate: (string, string) -> int)
    requires |rows| == 3
    requires Cell(rows[0], "name") == Str("Alpha") && Cell(rows[1], "name") == Str("Beta") && Cell(rows[2], "name") == Str("Gamma")
    requires Collation(collate)
    requires collate("Alpha", "Beta") < 0 && collate("Beta", "Gamma") < 0 && collate("Alpha", "Gamma") < 0
    ensures var asc := Sorted(rows, Some("name"), Asc, collate); |asc| == 3 && asc[0] == rows[0]
    ensures var desc := Sorted(rows, Some("name"), Desc, collate); |desc| == 3 && desc[0] == rows[2]
  {
    assert Sign(collate("Beta", "Alpha")) == -Sign(collate("Alpha", "Beta"));
    assert Sign(collate("Gamma", "Alpha")) == -Sign(collate("Alpha", "Gamma"));
    assert Sign(collate("Gamma", "Beta")) == -Sign(collate("Beta", "Gamma"));
    LeastComesFirst(rows, "name", Asc, collate, 0);
    LeastComesFirst(rows, "name", Desc, collate, 2);
  }

  /** `totalPages`: 1 without pagination, else the fewest pages of `pageSize` rows that hold every row. */
  function TotalPages(len: nat, pageSize: int): (r: int)
    ensures r >= 1
    ensures pageSize <= 0 || len == 0 ==> r == 1
    ensures pageSize > 0 && len > 0 ==> (r - 1) * pageSize < len <= r * pageSize
  {
    if pageSize > 0 then
      var q := (len + pageSize - 1) / pageSize;
      assert len + pageSize - 1 == q * pageSize + (len + pageSize - 1) % pageSize;
      if q >= 1 then q else 1
    else 1
  }

  /** `Math.min(page, totalPages - 1)`. */
  function SafePage(page: int, totalPages: int): (r: int)
    ensures r <= totalPages - 1 && r <= page
    ensures r == page || r == totalPages - 1
    ensures 0 <= page && 1 <= totalPages ==> 0 <= r
  {
    if page <= totalPages - 1 then page else totalPages - 1
  }

  /** `paginated`: rows `safePage * pageSize` up to `(safePage + 1) * pageSize`, or all rows without pagination. */
  function Paginated<T>(sorted: seq<T>, safePage: int, pageSize: int): (r: seq<T>)
    ensures pageSize <= 0 ==> r == sorted
    ensures pageSize > 0 && safePage >= 0 ==> |r| <= pageSize
    ensures pageSize > 0 && 0 <= safePage && safePage * pageSize <= |sorted| ==>
      r == sorted[safePage * pageSize..if (safePage + 1) * pageSize <= |sorted| then (safePage + 1) * pageSize else |sorted|]
  {
    if pageSize > 0 then JsArray.Slice(sorted, safePage * pageSize, (safePage + 1) * pageSize) else sorted
  }

  /** Pages 0 to n - 1, one after another. */
  function PagesBelow<T>(sorted: seq<T>, pageSize: int, n: nat): seq<T> {
    if n == 0 then [] else PagesBelow(sorted, pageSize, n - 1) + Paginated(sorted, n - 1, pageSize)
  }

  /** Page `p` is the slice from `p * pageSize` to the start of page `p + 1`. */
  lemma PaginatedIsSlice<T>(sorted: seq<T>, p: nat, pageSize: int)
    requires pageSize > 0
    ensures 0 <= p * pageSize <= (p + 1) * pageSize
    ensures Paginated(sorted, p, pageSize) == JsArray.Slice(sorted, p * pageSize, (p + 1) * pageSize)
  {
  }

  lemma {:induction false} PagesBelowPrefix<T>(sorted: seq<T>, pageSize: int, n: nat)
    requires pageSize > 0
    ensures PagesBelow(sorted, pageSize, n) == sorted[..if n * pageSize <= |sorted| then n * pageSize else |sorted|]
  {
    if n > 0 {
      var m: nat := n - 1;
      assert m + 1 == n;
      PagesBelowPrefix(sorted, pageSize, m);
      PaginatedIsSlice(sorted, m, pageSize);
      JsArray.SliceExtendsPrefix(sorted, m * pageSize, (m + 1) * pageSize);
    }
  }

  /** With pagination, pages 0 to `totalPages - 1` together show every sorted row once, in order. */
  lemma PagesCoverRows<T>(sorted: seq<T>, pageSize: int)
    requires pageSize > 0
    ensures PagesBelow(sorted, pageSize, TotalPages(|sorted|, pageSize)) == sorted
  {
    PagesBelowPrefix(sorted, pageSize, TotalPages(|sorted|, pageSize));
  }

  /** The navigation shows only with pagination and when Next is enabled on the first page. */
  function ShowNavigation(pageSize: int, totalPages: int): (r: bool)
    ensures r <==> pageSize > 0 && !NextDisabled(0, totalPages)
  {
    pageSize > 0 && totalPages > 1
  }

  /** The navigation shows exactly when paginating and the rows do not fit on one page. */
  lemma NavigationShownExactlyWhenRowsOverflow(len: nat, pageSize: int)
    ensures ShowNavigation(pageSize, TotalPages(len, pageSize)) <==> pageSize > 0 && len > pageSize
  {
    var r := TotalPages(len, pageSize);
    if pageSize > 0 {
      if len > pageSize {
        assert r * pageSize > 1 * pageSize;
      } else if len > 0 {
        assert (r - 1) * pageSize < 1 * pageSize;
      }
    }
  }

  /** Previous is disabled on the shown page exactly when stepping back from it would not move. */
  function PreviousDisabled(safePage: int): (r: bool)
    ensures safePage >= 0 ==> (r <==> PreviousPage(safePage) == safePage)
  {
    safePage == 0
  }

  /** Next is disabled on a valid shown page exactly when stepping forward from it would not move. */
  function NextDisabled(safePage: int, totalPages: int): (r: bool)
    ensures 0 <= safePage <= totalPages - 1 ==> (r <==> NextPage(safePage, totalPages) == safePage)
  {
    safePage >= totalPages - 1
  }

  /** The page Previous stores: `Math.max(0, p - 1)`. */
  function PreviousPage(page: int): (p: int)
    ensures p >= 0
    ensures page >= 1 ==> p == page - 1
  {
    if page - 1 >= 0 then page - 1 else 0
  }

  /** The page Next stores: `Math.min(totalPages - 1, p + 1)`. */
  function NextPage(page: int, totalPages: int): (p: int)
    ensures p <= totalPages - 1
    ensures page >= 0 && totalPages >= 1 ==> p >= 0
    ensures page + 1 <= totalPages - 1 ==> p == page + 1
  {
    if totalPages - 1 <= page + 1 then totalPages - 1 else page + 1
  }

  /**
   * For every stored page: an enabled Next moves the shown page one forward and a disabled one leaves it
   * (src/components/DataTable/DataTable.test.tsx:103-110). Previous behaves the same while the stored page
   * is a page of the current data; once the data has shrunk under it, Previous leaves the shown page
   * where it is although it is enabled (see PreviousStuckAfterDataShrinks).
   */
  lemma ButtonsDisabledExactlyWhenNoMove(page: int, totalPages: int)
    requires 0 <= page && 1 <= totalPages
    ensures var sp := SafePage(page, totalPages);
      && 0 <= sp <= totalPages - 1
      && (NextDisabled(sp, totalPages) <==> SafePage(NextPage(page, totalPages), totalPages) == sp)
      && (!NextDisabled(sp, totalPages) ==> SafePage(NextPage(page, totalPages), totalPages) == sp + 1)
      && (PreviousDisabled(sp) ==> SafePage(PreviousPage(page), totalPages) == sp)
      && (page <= totalPages - 1 ==> (PreviousDisabled(sp) <==> SafePage(PreviousPage(page), totalPages) == sp))
      && (page <= totalPages - 1 && !PreviousDisabled(sp) ==> SafePage(PreviousPage(page), totalPages) == sp - 1)
      && (page > totalPages - 1 ==> SafePage(PreviousPage(page), totalPages) == sp)
  {
  }

  /**
   * The stored page 5 with 15 rows of 10: the table shows page index 1 with Previous enabled, yet a
   * click stores page 4, which still shows as page index 1.
   */
  lemma PreviousStuckAfterDataShrinks()
    ensures var tp := TotalPages(15, 10);
      && tp == 2
      && SafePage(5, tp) == 1
      && !PreviousDisabled(SafePage(5, tp))
      && PreviousPage(5) == 4
      && SafePage(PreviousPage(5), tp) == SafePage(5, tp)
  {
    assert TotalPages(15, 10) == 2 by {
      assert (15 + 10 - 1) / 10 == 2;
    }
  }

  /** Previous stepping back from the shown page rather than the stored one: `Math.max(0, safePage - 1)`. */
  function PreviousFromShown(page: int, totalPages: int): (p: int)
    requires 0 <= page && 1 <= totalPages
    ensures 0 <= p <= totalPages - 1
    ensures PreviousDisabled(SafePage(page, totalPages)) <==> SafePage(p, totalPages) == SafePage(page, totalPages)
    ensures !PreviousDisabled(SafePage(page, totalPages)) ==> SafePage(p, totalPages) == SafePage(page, totalPages) - 1
  {
    PreviousPage(SafePage(page, totalPages))
  }

  /** The component's state cells `sortKey`, `sortDir` and `page`. */
  class TableState {
    var sortKey: Option<string>
    var sortDir: Direction
    var page: int

    ghost predicate Valid()
      reads this
    {
      page >= 0
    }

    constructor ()
      ensures Valid()
      ensures sortKey == None && sortDir == Asc && page == 0
    {
      sortKey := None;
      sortDir := Asc;
      page := 0;
    }

    /** The page index shown for data of `dataLength` rows: always a page of that data. */
    function ShownPage(dataLength: nat, pageSize: int): (r: int)
      reads this
      requires Valid()
      ensures 0 <= r <= TotalPages(dataLength, pageSize) - 1
      ensures page <= TotalPages(dataLength, pageSize) - 1 ==> r == page
    {
      SafePage(page, TotalPages(dataLength, pageSize))
    }

    /** `handleSort(key)`: flip the direction on the current key, else sort the new key ascending; back to page 0. */
    method HandleSort(key: string)
      requires Valid()
      modifies this
      ensures Valid()
      ensures old(sortKey) == Some(key) ==> sortKey == Some(key) && sortDir == (if old(sortDir) == Asc then Desc else Asc)
      ensures old(sortKey) != Some(key) ==> sortKey == Some(key) && sortDir == Asc
      ensures page == 0
    {
      if sortKey == Some(key) {
        sortDir := if sortDir == Asc then Desc else Asc;
      } else {
        sortKey := Some(key);
        sortDir := Asc;
      }
      page := 0;
    }

    /** The Previous button: steps back from the stored page, as written (see PreviousStuckAfterDataShrinks). */
    method Previous()
      requires Valid()
      modifies this
      ensures Valid()
      ensures page == PreviousPage(old(page))
      ensures sortKey == old(sortKey) && sortDir == old(sortDir)
    {
      page := if page - 1 >= 0 then page - 1 else 0;
    }

    /** The Next button, with `totalPages` of the render it was clicked in. */
    method Next(dataLength: nat, pageSize: int)
      requires Valid()
      modifies this
      ensures Valid()
      ensures page == NextPage(old(page), TotalPages(dataLength, pageSize))
      ensures sortKey == old(sortKey) && sortDir == old(sortDir)
    {
      var totalPages := TotalPages(dataLength, pageSize);
      page := if totalPages - 1 <= page + 1 then totalPages - 1 else page + 1;
    }
  }
}

=== FILE: js_array.dfy ===
/**
 * The two `Array.prototype` operations the tables use. `sort` is modelled as a stable insertion sort,
 * which gives the same order as the engine's stable sort whenever the comparator is consistent;
 * `slice` follows its definition: negative indices count from the end, indices past the end are clamped.
 */
module JsArray {

  /** Puts `x` before the first element it does not compare above. */
  function Insert<T>(x: T, s: seq<T>, cmp: (T, T) -> int): (r: seq<T>)
    ensures multiset(r) == multiset(s) + multiset{x}
    ensures |r| == |s| + 1
  {
    if s == [] then [x]
    else if cmp(x, s[0]) <= 0 then [x] + s
    else
      assert s == [s[0]] + s[1..];
      [s[0]] + Insert(x, s[1..], cmp)
  }

  /** `[...s].sort(cmp)`: a permutation of `s`. */
  function Sort<T>(s: seq<T>, cmp: (T, T) -> int): (r: seq<T>)
    ensures multiset(r) == multiset(s)
    ensures |r| == |s|
  {
    if s == [] then [] else
      assert s == [s[0]] + s[1..];
      Insert(s[0], Sort(s[1..], cmp), cmp)
  }

  /** Every element with property `p` comes after every element without it. */
  ghost predicate Partitioned<T>(s: seq<T>, p: T -> bool) {
    forall i, j :: 0 <= i < j < |s| && p(s[i]) ==> p(s[j])
  }

  lemma {:induction false} InsertPartitioned<T>(x: T, s: seq<T>, cmp: (T, T) -> int, p: T -> bool)
    requires Partitioned(s, p)
    requires forall y :: y in s && !p(x) && p(y) ==> cmp(x, y) <= 0
    requires forall y :: y in s && p(x) && !p(y) ==> cmp(x, y) > 0
    ensures Partitioned(Insert(x, s, cmp), p)
  {
    if s != [] && cmp(x, s[0]) > 0 {
      var rest := s[1..];
      assert forall i, j :: 0 <= i < j < |rest| && p(rest[i]) ==> p(rest[j]) by {
        forall i, j | 0 <= i < j < |rest| && p(rest[i]) ensures p(rest[j]) {
          assert rest[i] == s[i + 1] && rest[j] == s[j + 1];
        }
      }
      InsertPartitioned(x, rest, cmp, p);
      var r := Insert(x, rest, cmp);
      if p(s[0]) {
        // then every element of s has p, and so has x: it went past s[0]
        assert p(x);
        assert forall y :: y in multiset(r) ==> y == x || y in rest;
        forall j | 0 <= j < |r| ensures p(r[j]) {
          assert r[j] in multiset(r);
          if r[j] != x {
            assert r[j] in rest;
            var k :| 0 <= k < |rest| && rest[k] == r[j];
            assert s[k + 1] == r[j];
          }
        }
      }
    }
  }

  /**
   * If the comparator puts every element without `p` before every element with it, the sorted
   * array lists the elements without `p` first.
   */
  lemma {:induction false} SortPartitioned<T>(s: seq<T>, cmp: (T, T) -> int, p: T -> bool)
    requires forall x, y :: x in s && y in s && !p(x) && p(y) ==> cmp(x, y) <= 0 && cmp(y, x) > 0
    ensures Partitioned(Sort(s, cmp), p)
  {
    if s != [] {
      var rest := s[1..];
      assert forall y :: y in rest ==> y in s;
      SortPartitioned(rest, cmp, p);
      var sorted := Sort(rest, cmp);
      forall y | y in sorted ensures y in rest {
        assert y in multiset(sorted);
      }
      InsertPartitioned(s[0], sorted, cmp, p);
    }
  }

  /** The elements in comparator order: no element compares above one that follows it. */
  ghost predicate Ordered<T>(s: seq<T>, cmp: (T, T) -> int) {
    forall i, j :: 0 <= i < j < |s| ==> cmp(s[i], s[j]) <= 0
  }

  /** `cmp(x, y) <= 0`, read as "x may come before y", is total and transitive on the elements of `s`. */
  ghost predicate TotalPreorderOn<T>(s: seq<T>, cmp: (T, T) -> int) {
    && (forall x, y :: x in s && y in s ==> cmp(x, y) <= 0 || cmp(y, x) <= 0)
    && (forall x, y, z :: x in s && y in s && z in s && cmp(x, y) <= 0 && cmp(y, z) <= 0 ==> cmp(x, z) <= 0)
  }

  lemma TotalPreorderOnSubset<T>(s: seq<T>, t: seq<T>, cmp: (T, T) -> int)
    requires TotalPreorderOn(s, cmp)
    requires forall y :: y in t ==> y in s
    ensures TotalPreorderOn(t, cmp)
  {
  }

  /** Prepending an element that compares at most every element keeps the order. */
  lemma OrderedCons<T>(x: T, s: seq<T>, cmp: (T, T) -> int)
    requires Ordered(s, cmp)
    requires forall j :: 0 <= j < |s| ==> cmp(x, s[j]) <= 0
    ensures Ordered([x] + s, cmp)
  {
    var r := [x] + s;
    forall i, j | 0 <= i < j < |r| ensures cmp(r[i], r[j]) <= 0 {
      assert r[j] == s[j - 1];
      if i > 0 {
        assert r[i] == s[i - 1];
      }
    }
  }

  lemma {:induction false} InsertOrdered<T>(x: T, s: seq<T>, cmp: (T, T) -> int)
    requires Ordered(s, cmp)
    requires TotalPreorderOn([x] + s, cmp)
    ensures Ordered(Insert(x, s, cmp), cmp)
  {
    var xs := [x] + s;
    if s == [] {
    } else if cmp(x, s[0]) <= 0 {
      forall j | 0 <= j < |s| ensures cmp(x, s[j]) <= 0 {
        if j > 0 {
          assert cmp(s[0], s[j]) <= 0;
          assert x in xs && s[0] in xs && s[j] in xs;
        }
      }
      OrderedCons(x, s, cmp);
    } else {
      var rest := s[1..];
      assert Ordered(rest, cmp) by {
        forall i, j | 0 <= i < j < |rest| ensures cmp(rest[i], rest[j]) <= 0 {
          assert rest[i] == s[i + 1] && rest[j] == s[j + 1];
        }
      }
      TotalPreorderOnSubset(xs, [x] + rest, cmp);
      InsertOrdered(x, rest, cmp);
      var t := Insert(x, rest, cmp);
      assert s[0] in xs && x in xs;
      forall j | 0 <= j < |t| ensures cmp(s[0], t[j]) <= 0 {
        assert t[j] in multiset(t);
        if t[j] != x {
          assert t[j] in multiset(rest);
          var k :| 0 <= k < |rest| && rest[k] == t[j];
          assert s[k + 1] == t[j];
        }
      }
      OrderedCons(s[0], t, cmp);
    }
  }

  /** Given a comparator that is a total preorder on the elements, the sorted copy is in comparator order. */
  lemma {:induction false} SortOrdered<T>(s: seq<T>, cmp: (T, T) -> int)
    requires TotalPreorderOn(s, cmp)
    ensures Ordered(Sort(s, cmp), cmp)
  {
    if s != [] {
      var rest := s[1..];
      TotalPreorderOnSubset(s, rest, cmp);
      SortOrdered(rest, cmp);
      var sorted := Sort(rest, cmp);
      forall y | y in [s[0]] + sorted ensures y in s {
        if y != s[0] {
          assert y in multiset(sorted);
        }
      }
      TotalPreorderOnSubset(s, [s[0]] + sorted, cmp);
      InsertOrdered(s[0], sorted, cmp);
    }
  }

  /** A relative index of `slice`, resolved against the length. */
  function RelativeIndex(i: int, len: nat): (r: nat)
    ensures r <= len
    ensures 0 <= i <= len ==> r == i
    ensures i > len ==> r == len
    ensures i < 0 && -i <= len ==> r == len + i
    ensures i + len < 0 ==> r == 0
  {
    if i < 0 then (if len + i < 0 then 0 else len + i)
    else if i > len then len
    else i
  }

  /** `s.slice(start, end)`. */
  function Slice<T>(s: seq<T>, start: int, end: int): (r: seq<T>)
    ensures 0 <= start <= end ==> |r| <= end - start
    ensures 0 <= start <= |s| && start <= end ==> r == s[start..if end <= |s| then end else |s|]
    ensures |s| <= start ==> r == []
  {
    var from := RelativeIndex(start, |s|);
    var to := RelativeIndex(end, |s|);
    if from < to then s[from..to] else []
  }

  /** Element `idx` of a slice from a non-negative `start` is element `start + idx` of the array. */
  lemma SliceAt<T>(s: seq<T>, start: nat, end: int, idx: nat)
    requires idx < |Slice(s, start, end)|
    ensures start + idx < |s|
    ensures Slice(s, start, end)[idx] == s[start + idx]
  {
  }

  /** The prefix up to a non-negative `start`, followed by the slice from it, is a longer prefix. */
  lemma SliceExtendsPrefix<T>(s: seq<T>, start: nat, end: nat)
    requires start <= end
    ensures var m := if start <= |s| then start else |s|;
      var n := if end <= |s| then end else |s|;
      s[..m] + Slice(s, start, end) == s[..n]
  {
  }
}

=== FILE: js_value.dfy ===
/**
 * The cell values a table row holds, as far as the tables look at them: `null`/`undefined`, booleans,
 * integral numbers and strings. A row maps column keys to values; a missing key reads as `undefined`.
 */
module JsValue {
  import Text

  datatype Value = Null | Bool(b: bool) | Num(n: int) | Str(s: string)

  type Row = map<string, Value>

  /** `row[key]`. */
  function Cell(row: Row, key: string): (v: Value)
    ensures key !in row ==> v == Null
    ensures key in row ==> v == row[key]
  {
    if key in row then row[key] else Null
  }

  /** `String(v)` for a value that is not `null`/`undefined`. */
  function ToString(v: Value): (s: string)
    requires !v.Null?
    ensures v.Str? ==> s == v.s
    ensures v.Bool? ==> (s == "true" <==> v.b) && (s == "false" <==> !v.b)
    ensures v.Num? ==> |s| >= 1 && (s[0] == '-' <==> v.n < 0) && (v.n >= 0 ==> Text.AllDigits(s))
  {
    match v
    case Bool(b) => if b then "true" else "false"
    case Num(n) => Text.IntToString(n)
    case Str(s) => s
  }

  /**
   * A `localeCompare` that behaves as a collation: swapping the arguments flips the sign of the
   * result, and "at most" is transitive.
   */
  ghost predicate Collation(collate: (string, string) -> int) {
    && (forall a, b :: Sign(collate(a, b)) == -Sign(collate(b, a)))
    && (forall a, b, c :: collate(a, b) <= 0 && collate(b, c) <= 0 ==> collate(a, c) <= 0)
  }

  /** The sign of a comparator result. */
  function Sign(x: int): int {
    if x < 0 then -1 else if x > 0 then 1 else 0
  }
}

=== FILE: sse.dfy ===
/**
 * The live event subscriber of src/sse/sse.ts: the URL `connectSSE` opens, built from defaults and the
 * stored token, and the `onmessage` gate that forwards a payload only when it parses. The browser's
 * `EventSource` is a class holding the URL, the installed error handler and the events forwarded so far.
 * `encodeURIComponent` (percent-encoding, section 2.1 of RFC 3986) and `JSON.parse` are parameters.
 */
module Sse {
  import opened Wrappers
  import Storage
  import ApiClient

  const DefaultUrl: string := "/events"
  const DefaultWithAuth: bool := true
  const DefaultTokenKey: string := "auth_token"

  /** `SSEConfig` without `onEvent`, whose calls are recorded on the event source; `None` is an omitted option. */
  datatype SseConfig = SseConfig(
    url: Option<string>,
    withAuth: Option<bool>,
    tokenKey: Option<string>,
    onError: Option<ApiClient.Callback>)

  /** `url.includes('?') ? '&' : '?'`. */
  function Separator(url: string): (sep: string)
    ensures sep == "&" <==> '?' in url
    ensures sep == "?" <==> '?' !in url
  {
    if '?' in url then "&" else "?"
  }

  /** The URL `connectSSE` opens, for the stored token `stored`. */
  function ExpectedUrl(config: SseConfig, stored: Option<string>, encode: string -> string): (fullUrl: string)
    ensures var url := config.url.GetOr(DefaultUrl);
      && url <= fullUrl
      && (config.withAuth.GetOr(DefaultWithAuth) && Truthy(stored) ==>
            fullUrl == url + Separator(url) + "token=" + encode(stored.value))
      && (!config.withAuth.GetOr(DefaultWithAuth) || !Truthy(stored) ==> fullUrl == url)
  {
    var url := config.url.GetOr(DefaultUrl);
    if config.withAuth.GetOr(DefaultWithAuth) && Truthy(stored)
    then url + Separator(url) + "token=" + encode(stored.value)
    else url
  }

  /** The first half of `connectSSE`: apply the defaults, then append the token when auth is on and one is stored. */
  method FullUrl(config: SseConfig, localStorage: Storage.KeyValueStorage, encode: string -> string) returns (fullUrl: string)
    ensures fullUrl == ExpectedUrl(config, Lookup(localStorage.items, config.tokenKey.GetOr(DefaultTokenKey)), encode)
  {
    var url := config.url.GetOr(DefaultUrl);
    var withAuth := config.withAuth.GetOr(DefaultWithAuth);
    var tokenKey := config.tokenKey.GetOr(DefaultTokenKey);
    fullUrl := url;
    if withAuth {
      var token := localStorage.GetItem(tokenKey);
      if token.Some? && token.value != "" {
        var sep := if '?' in url then "&" else "?";
        fullUrl := url + sep + "token=" + encode(token.value);
      }
    }
  }

  /** With the defaults and a stored token "abc" that encodes to itself, the URL is `/events?token=abc`. */
  lemma DefaultUrlCarriesToken(encode: string -> string)
    requires encode("abc") == "abc"
    ensures ExpectedUrl(SseConfig(None, None, None, None), Some("abc"), encode) == "/events?token=abc"
  {
    assert '?' !in DefaultUrl;
  }

  /** The calls to `onEvent` that one message makes: one with the parsed value, or none when parsing throws. */
  function Gate<E>(data: string, parse: string -> Result<E, string>): (calls: seq<E>)
    ensures |calls| <= 1
    ensures |calls| == 1 <==> parse(data).Success?
    ensures parse(data).Success? ==> calls == [parse(data).value]
  {
    match parse(data)
    case Success(v) => [v]
    case Failure(_) => []
  }

  /**
   * The calls to `onEvent` that a stream of messages makes, in arrival order: never more calls than
   * messages, one per message when all are well-formed, and none for a stream of malformed payloads.
   */
  function Deliveries<E>(messages: seq<string>, parse: string -> Result<E, string>): (r: seq<E>)
    ensures |r| <= |messages|
    ensures (forall i :: 0 <= i < |messages| ==> parse(messages[i]).Success?) ==> |r| == |messages|
    ensures (forall i :: 0 <= i < |messages| ==> parse(messages[i]).Failure?) ==> r == []
    decreases |messages|
  {
    if messages == [] then []
    else Deliveries(messages[..|messages| - 1], parse) + Gate(messages[|messages| - 1], parse)
  }

  /** Deliveries of two stretches of the stream are the deliveries of each, in order. */
  lemma {:induction false} DeliveriesConcat<E>(a: seq<string>, b: seq<string>, parse: string -> Result<E, string>)
    ensures Deliveries(a + b, parse) == Deliveries(a, parse) + Deliveries(b, parse)
    decreases |b|
  {
    if b == [] {
      assert a + b == a;
    } else {
      var b' := b[..|b| - 1];
      assert (a + b)[..|a + b| - 1] == a + b';
      assert (a + b)[|a + b| - 1] == b[|b| - 1];
      DeliveriesConcat(a, b', parse);
      assert Deliveries(b, parse) == Deliveries(b', parse) + Gate(b[|b| - 1], parse);
    }
  }

  /** The `EventSource` that `connectSSE` returns, with the handlers it installed. */
  class EventSource<E> {
    const url: string
    const parse: string -> Result<E, string>
    var onerror: Option<ApiClient.Callback>
    ghost var received: seq<string>
    var delivered: seq<E>

    ghost predicate Valid()
      reads this
    {
      delivered == Deliveries(received, parse)
    }

    constructor (url: string, parse: string -> Result<E, string>)
      ensures Valid()
      ensures this.url == url && this.parse == parse && onerror == None
      ensures received == [] && delivered == []
    {
      this.url := url;
      this.parse := parse;
      onerror := None;
      received := [];
      delivered := [];
    }

    /** `es.onmessage`: parse the payload and forward it, or drop it. */
    method OnMessage(data: string)
      requires Valid()
      modifies this
      ensures Valid()
      ensures received == old(received) + [data]
      ensures delivered == old(delivered) + Gate(data, parse)
      ensures onerror == old(onerror)
    {
      received := received + [data];
      match parse(data) {
        case Success(v) => delivered := delivered + [v];
        case Failure(_) =>
      }
      assert received[..|received| - 1] == old(received);
    }

    /** A connection error: the call made to the installed handler, if one is installed. */
    method OnConnectionError() returns (forwardedTo: Option<ApiClient.Callback>)
      ensures forwardedTo == onerror
    {
      forwardedTo := onerror;
    }
  }

  /** `connectSSE`: open the source on the full URL and install `onerror` only when `onError` is given. */
  method ConnectSse<E>(config: SseConfig, localStorage: Storage.KeyValueStorage, encode: string -> string,
                       parse: string -> Result<E, string>) returns (es: EventSource<E>)
    ensures fresh(es) && es.Valid()
    ensures es.url == ExpectedUrl(config, Lookup(localStorage.items, config.tokenKey.GetOr(DefaultTokenKey)), encode)
    ensures es.parse == parse && es.received == [] && es.delivered == []
    ensures es.onerror == config.onError
  {
    var fullUrl := FullUrl(config, localStorage, encode);
    es := new EventSource(fullUrl, parse);
    if config.onError.Some? {
      es.onerror := config.onError;
    }
  }
}

=== FILE: storage.dfy ===
/**
 * The key/value storage adapter (`getItem`/`setItem`/`removeItem`) that the session store writes its token to
 * and that the request gateway and the event subscriber read it from. Browser `localStorage` is one instance.
 */
module Storage {
  import opened Wrappers

  class KeyValueStorage {
    var items: map<string, string>

    constructor (initial: map<string, string>)
      ensures items == initial
    {
      items := initial;
    }

    method GetItem(key: string) returns (value: Option<string>)
      ensures value.Some? <==> key in items
      ensures value.Some? ==> value.value == items[key]
    {
      value := if key in items then Some(items[key]) else None;
    }

    method SetItem(key: string, value: string)
      modifies this
      ensures items == old(items)[key := value]
    {
      items := items[key := value];
    }

    method RemoveItem(key: string)
      modifies this
      ensures items == old(items) - {key}
    {
      items := items - {key};
    }
  }
}

=== FILE: text.dfy ===
/** Decimal rendering of numbers, as JavaScript's `String(n)` and template literals produce it for integers. */
module Text {

  predicate IsDigit(c: char) {
    '0' <= c <= '9'
  }

  predicate AllDigits(s: string) {
    forall i :: 0 <= i < |s| ==> IsDigit(s[i])
  }

  function DigitChar(d: nat): (c: char)
    requires d < 10
    ensures IsDigit(c)
  {
    ['0', '1', '2', '3', '4', '5', '6', '7', '8', '9'][d]
  }

  function DigitValue(c: char): nat
    requires IsDigit(c)
  {
    (c as int - '0' as int) as nat
  }

  /** The shortest decimal form of `n` (no leading zeros). */
  function NatToString(n: nat): (s: string)
    ensures |s| >= 1 && AllDigits(s)
    ensures n >= 10 ==> s[0] != '0'
    decreases n
  {
    if n < 10 then [DigitChar(n)] else NatToString(n / 10) + [DigitChar(n % 10)]
  }

  /** The value of a run of decimal digits: the inverse of NatToString. */
  function DigitsToNat(s: string): nat
    requires AllDigits(s)
  {
    if s == [] then 0 else DigitsToNat(s[..|s| - 1]) * 10 + DigitValue(s[|s| - 1])
  }

  lemma DigitRoundTrip(d: nat)
    requires d < 10
    ensures DigitValue(DigitChar(d)) == d
  {
  }

  /** Reading back the rendered digits yields the number: rendering loses nothing. */
  lemma {:induction false} NatToStringRoundTrip(n: nat)
    ensures DigitsToNat(NatToString(n)) == n
    decreases n
  {
    var s := NatToString(n);
    if n < 10 {
      DigitRoundTrip(n);
      assert s[..0] == [];
    } else {
      NatToStringRoundTrip(n / 10);
      DigitRoundTrip(n % 10);
      assert s[..|s| - 1] == NatToString(n / 10);
    }
  }

  /** Two numbers render alike only when they are equal. */
  lemma NatToStringInjective(m: nat, n: nat)
    requires NatToString(m) == NatToString(n)
    ensures m == n
  {
    NatToStringRoundTrip(m);
    NatToStringRoundTrip(n);
  }

  /** `String(n)` for an integer `n`: a minus sign before the digits of a negative number. */
  function IntToString(n: int): (s: string)
    ensures |s| >= 1
    ensures n >= 0 ==> AllDigits(s)
    ensures n < 0 ==> s[0] == '-' && AllDigits(s[1..])
  {
    if n >= 0 then NatToString(n) else "-" + NatToString(-n)
  }

  /** The length of the run of decimal digits at the start of `s`. */
  function DigitRun(s: string): (n: nat)
    ensures n <= |s| && AllDigits(s[..n])
    ensures n < |s| ==> !IsDigit(s[n])
  {
    if s == [] || !IsDigit(s[0]) then 0
    else
      var n := 1 + DigitRun(s[1..]);
      assert s[..n] == [s[0]] + s[1..][..n - 1];
      n
  }

  /** The digit run of `d + t` is exactly `d` when `t` starts with something other than a digit. */
  lemma {:induction false} DigitRunOfConcat(d: string, t: string)
    requires AllDigits(d)
    requires t != [] && !IsDigit(t[0])
    ensures DigitRun(d + t) == |d|
  {
    if d != [] {
      assert (d + t)[1..] == d[1..] + t;
      DigitRunOfConcat(d[1..], t);
    }
  }
}

=== FILE: wrappers.dfy ===
/** Option and Result values, used wherever the source has `null`, `undefined` or a thrown error. */
module Wrappers {

  /** `None` stands for JavaScript's `null` or `undefined`. */
  datatype Option<+T> = None | Some(value: T) {
    function GetOr(default: T): T {
      match this
      case Some(v) => v
      case None => default
    }
  }

  /** The outcome of a step that may throw. */
  datatype Result<+R, +E> = Success(value: R) | Failure(error: E)

  /** JavaScript truthiness of a `string | null`: present and not the empty string. */
  predicate Truthy(s: Option<string>) {
    s.Some? && s.value != ""
  }

  /** A key/value lookup with `getItem` semantics: the value, or `null` when the key is absent. */
  function Lookup(m: map<string, string>, key: string): (r: Option<string>)
    ensures r.Some? <==> key in m
    ensures r.Some? ==> m[key] == r.value
  {
    if key in m then Some(m[key]) else None
  }
}
